=== FILE: README.md ===
# GitLab-to-GitHub migration script, modelled in Dafny

`migrate_repos.py` reads a list of GitLab clone URLs from `repos.txt`. Then, for each URL in turn, it:

1. derives a repository name from the URL;
2. creates the GitHub repository unless it exists, copying the GitLab visibility;
3. mirror-clones the GitLab repository into a local directory of that name;
4. changes into the clone, adds GitHub as a remote and mirror-pushes;
5. in a `finally` clause, steps back up one directory and removes the clone.

The model follows that structure, one module per concern:

- `Options` holds a generic optional value. It is the result of the percent-decoder and stands for a `repos.txt` that may be missing.
- `Text` holds the Python string operations the script uses. Each is modelled as Python defines it:
  - `str.replace` with a non-empty pattern: one left-to-right scan;
  - `str.split` on one character, and `[-1]`;
  - `str.strip`, with `str.isspace`'s white-space set.
- `Quoting` holds `requests.utils.quote(path, safe='')`. The path is encoded as UTF-8, and every byte outside the unreserved set of section 2.3 of RFC 3986 is percent-encoded with upper-case hex digits (section 2.1 of RFC 3986). A percent-decoder is included as its inverse.
- `Naming` derives the repository name and the GitLab project identifier from a clone URL.
- `Api` holds the three HTTP helpers as decisions over given replies, namely status codes and the `visibility` member. It also records the requests the creator issues.
- `Workflow` models `migrate_repo` as a function of the URL and an environment `Env`:
  - The `Env` gives the result of every fallible step: HTTP replies, the stale-directory check and its removal, and the exit statuses of the clone, remote-add and push commands. It also says whether `os.chdir(repo_name)` raises.
  - The function returns a `Run`: a trace of actions, the net change of the working-directory depth, and the outcome the log reports.
  - Exceptions are the `Raised` outcome of a call. The `except Exception` clause maps them to the `Aborted` outcome.
- `Batch` models the main block. It builds the repository list and runs the per-repository workflow once per entry. It also tracks the directory depth at which each migration starts.

The code is modelled as written. For example, the repository name is built with `.replace(".git", "")`, which removes every ".git" in the last piece of the URL, not only a trailing one (`Naming.RepoNameRemovesInnerGit`).

## Model

| member | source | states |
|---|---|---|
| Text.ReplaceAll | migrate_repos.py:68 | Removing a pattern never lengthens the text, and every remaining character comes from the input. |
| Text.ReplaceAbsent | migrate_repos.py:112 | Text without the pattern is returned unchanged. |
| Text.ReplaceRemovesOccurrence | migrate_repos.py:112 | Text with an occurrence of the pattern gets shorter by at least the pattern's length. |
| Text.ReplaceUnchangedIffAbsent | migrate_repos.py:112 | Removing a pattern leaves the text unchanged exactly when the pattern does not occur in it. |
| Text.RemoveGitSuffix | migrate_repos.py:112 | A name followed by one ".git", with no other occurrence, loses exactly that suffix. ".git" cannot overlap itself, so no match straddles the boundary. |
| Text.Split | migrate_repos.py:112 | `split("/")` gives at least one piece, and no piece holds the separator. |
| Text.SplitJoin | migrate_repos.py:112 | Joining the pieces of `split(sep)` with the separator gives the input back. |
| Text.LastPiece | migrate_repos.py:112 | `split("/")[-1]` holds no `/`. |
| Text.LastPieceSuffix | migrate_repos.py:112 | `split("/")[-1]` is a suffix of the input and, unless it is the whole input, is preceded by a `/`. |
| Text.LastPieceAfterTrailingSeparator | migrate_repos.py:112 | A text ending in `/` has an empty last piece. |
| Text.Strip | migrate_repos.py:170 | The input is leading white space, then the result, then a blank tail. A non-empty result starts and ends with a non-space character. |
| Text.StripEmptyIffBlank | migrate_repos.py:170 | `line.strip()` is empty exactly when the line is all white space, which is the filter of the list comprehension. |
| Text.StripIdempotent | migrate_repos.py:170 | Stripping a stripped line changes nothing. |
| Quoting.Utf8 | migrate_repos.py:69 | One character becomes one to four UTF-8 bytes. It is one byte exactly when the character is ASCII. A longer encoding starts with a lead byte of at least 0xC0, followed only by continuation bytes in 0x80-0xBF. |
| Quoting.Utf8Encode | migrate_repos.py:69 | The UTF-8 encoding of a string has at least one byte per character. It has exactly one byte per character when the string is all ASCII, and then each byte is its character's code. |
| Quoting.Utf8RoundTrip | migrate_repos.py:69 | The UTF-8 bytes `quote` encodes decode back to the character. |
| Quoting.EncodeByte | migrate_repos.py:69 | One byte becomes ASCII text made of `%` and unreserved characters, never `/`. It stays a single character exactly when the byte is unreserved. Every other byte becomes a three-character `%XX` escape. |
| Quoting.QuoteBytes | migrate_repos.py:69 | The quoted bytes come out as ASCII text made only of `%` and unreserved characters. No `/`, `?` or `#` appears literally. |
| Quoting.Quote | migrate_repos.py:69 | With `safe=''` the quoted text is ASCII made only of `%` and unreserved characters. No `/`, `?` or `#` can end the path early, so it stands as one path segment. |
| Quoting.QuoteBytesRoundTrip | migrate_repos.py:69 | Percent-decoding the quoted bytes gives the bytes back. |
| Quoting.QuoteRoundTrip | migrate_repos.py:69 | Percent-decoding the quoted path gives its UTF-8 encoding. |
| Quoting.QuoteUnreserved | migrate_repos.py:69 | A path made only of unreserved characters is left as it is. |
| Naming.RepoName | migrate_repos.py:112 | The repository name holds no `/` and is no longer than the URL. A URL ending in `/` gives the empty name. |
| Naming.GitHubUrl | migrate_repos.py:113 | The same naming rule applied to the GitHub URL gives back the repository name, when the name holds no `/` and no ".git". |
| Naming.RepoNameCanBeParent | migrate_repos.py:112 | A URL ending in `/...git` gives the name `..`, the parent directory. |
| Naming.LastPieceAfterSeparator | migrate_repos.py:112 | `split("/")[-1]` of `p + "/" + w`, where `w` has no `/`, is `w`. |
| Naming.RepoNameOfUsualUrl | migrate_repos.py:112 | For `.../project.git`, where the project has no `/` and no ".git", the name is the project. |
| Naming.RepoNameWithoutSuffix | migrate_repos.py:112 | A last piece without ".git" is the name unchanged. |
| Naming.RemoveEveryGit | migrate_repos.py:68 | `"x.gity.git".replace(".git", "")` is `"xy"`: inner occurrences are removed too. |
| Naming.RepoNameRemovesInnerGit | migrate_repos.py:112 | The URL `https://gitlab.com/team/x.gity.git` gives the repository name `xy`. |
| Naming.ProjectPath | migrate_repos.py:68 | The project path is no longer than the URL, and every character in it comes from the URL. |
| Naming.ProjectPathOfUsualUrl | migrate_repos.py:68 | For `https://gitlab.com/` followed by a path and one ".git", with no other ".git" and no second GitLab prefix, the project path is that path. |
| Naming.ProjectId | migrate_repos.py:68-69 | The project identifier holds no `/`. Percent-decoding it gives the UTF-8 bytes of the URL with the GitLab prefix and ".git" removed. |
| Api.RepoExists | migrate_repos.py:47-62 | The result is true exactly on status 200. A 404 and every other status give false. A failing request raises. |
| Api.IsPrivate | migrate_repos.py:65-80 | Fails closed: the result is false (public) exactly on a 200 whose `visibility` is the string "public". Every other status, and a missing member, give true. It raises exactly when the request raises or a 200 body is not a JSON object. |
| Api.CreateRepo | migrate_repos.py:83-107 | The GitLab query always comes first and the existence check second. A third request is issued exactly when the visibility is known and the repository is absent. It is the creation POST, carrying that visibility as `private` and the "Migrated from GitLab" description. The result is true exactly when the repository existed or creation answered 201. It raises exactly when one of the calls it made raised. |
| Workflow.Creator | migrate_repos.py:122 | The creator queries the GitLab project of the URL, and its lookup and any creation request are about the repository name. |
| Workflow.Publish | migrate_repos.py:139-153 | Inside the clone, the remote is added first, and a push can only come second. A failed remote-add means no push. `RemoteFailed` is reported exactly when the remote-add exits non-zero. `PushFailed` is reported exactly when the remote-add exits 0 and the push non-zero. `Aborted` is reported exactly when one of them raises first. A step out comes only last, and exactly after a failed command. Success issues exactly the remote and the push, and happens exactly when both commands exit 0. A failed command ends at the start depth. An exception leaves the process inside the clone. A failed remote-add issues exactly the remote and one step out. A failed push issues exactly the remote, the push and one step out. A raising remote-add issues only the remote. A remote-add that exits 0 is always followed by the push. |
| Workflow.FetchInside | migrate_repos.py:137-153 | After a successful clone and `chdir`, the change into the clone comes second and the remote third. The outcome and the depth are those of the publish. Success issues exactly clone, enter, remote and push. Everything after the clone and the change into it is exactly the publish's actions, whatever they are. |
| Workflow.StaleRemoval | migrate_repos.py:127-128 | The stale removal issues a removal exactly when the directory already exists. It issues at most one action and leaves the depth unchanged. |
| Workflow.Fetch | migrate_repos.py:131-153 | The clone comes first. A failed or raising clone, or a raising `chdir`, stops right after it. Otherwise the change into the clone and the remote follow. `CloneFailed` is reported exactly when the clone exits non-zero. Success issues exactly clone, enter, remote and push, and happens exactly when all four succeed. |
| Workflow.Checkout | migrate_repos.py:126-153 | The stale removal, when the directory exists, comes first; a raising removal stops there; otherwise the clone follows it. Success issues exactly the removal, clone, enter, remote and push. A failed clone means no directory change, remote or push. The net depth is 1 exactly after a success or an exception raised inside the clone, and 0 otherwise. |
| Workflow.Attempt | migrate_repos.py:120-153 | The `try` block starts with the creator's requests. A failed or raising creator is followed by nothing. `CreateFailed` is reported exactly when the creator returns false. Success requires every step to succeed. The depth is the net depth of the trace. |
| Workflow.AttemptOrder | migrate_repos.py:120-137 | Nothing follows a creator that did not return true. Otherwise the stale removal, if any, comes right after the creator's requests, and then the clone. A successful attempt issues exactly the removal and the successful fetch after the requests. |
| Workflow.FetchEnds | migrate_repos.py:131-153 | A fetch ends inside the clone exactly when the clone and the `chdir` succeed and then the remote-add raises, or it succeeds and the push does not fail with a status. It logs a failure exactly when the clone, remote-add or push exits non-zero. |
| Workflow.CheckoutEnds | migrate_repos.py:126-153 | As for the fetch, except that a raising stale removal ends outside the clone without a logged failure. |
| Workflow.AttemptEnds | migrate_repos.py:120-153 | As for the checkout, given the creator's result. A creator returning false is the fourth logged failure. |
| Workflow.Finally | migrate_repos.py:158-161 | The cleanup as written always steps up one level. The final removal is issued one level above where the attempt ended, and the run's depth is one less than the attempt's. |
| Workflow.Migrate | migrate_repos.py:110-162 | Every run starts with the GitLab visibility query and ends with `chdir("..")` followed by removal of the clone directory. It succeeds exactly when every step succeeds. |
| Workflow.MigrateSuccessTrace | migrate_repos.py:110-161 | A run in which every step succeeds issues exactly the creator's requests, the stale removal if any, the clone, the change into it, the remote, the push, `chdir("..")` and the removal, in that order. |
| Workflow.FinallyAddsNothingInside | migrate_repos.py:158-161 | The cleanup adds no change into the clone, no remote and no push. |
| Workflow.MigrateStopsAtFailure | migrate_repos.py:120-150 | A failed creator is followed only by the cleanup. A failed clone is followed by no directory change, remote or push. A failed remote-add is followed by no push. |
| Workflow.MigrateDepth | migrate_repos.py:120-161 | The reported depth is the net depth of the trace, and it is 0 or -1. In terms of the outcome, it is 0 exactly after a success or an exception raised inside the clone. The final removal is issued at that depth. |
| Workflow.MigrateEnds | migrate_repos.py:110-161 | In terms of the step results, a run ends where it started exactly when every step succeeds, or when the remote-add or push raises inside the clone. It logs one of the four failures exactly when the creator returns false, or when a later clone, remote-add or push exits non-zero. |
| Workflow.FailedRunEndsAboveStart | migrate_repos.py:121-161 | For every step result that makes the run log one of its four failures, the run ends one directory above its start, and the final `rmtree(repo_name)` is issued there. |
| Workflow.FetchTrace | migrate_repos.py:131-153 | After a successful clone and `chdir`, the fetch issues exactly the clone, the change into the clone, and then the publish's actions. |
| Workflow.CheckoutTrace | migrate_repos.py:126-153 | When the clone directory is removable (or absent), the clone succeeds and the `chdir` succeeds, the checkout issues exactly the stale removal, the clone, the change into the clone, and then the publish's actions. |
| Workflow.AttemptTrace | migrate_repos.py:120-153 | Under the same conditions and for any creator returning true, the `try` block issues exactly the creator's requests followed by the checkout's actions. |
| Workflow.MigrateInsideTrace | migrate_repos.py:110-161 | Under the same conditions, a whole run issues exactly the creator's requests, the stale removal, the clone, the change into the clone, the publish's actions, and then the cleanup's step out and removal. |
| Workflow.RemoteFailedSteps | migrate_repos.py:137-161 | A failed remote-add, between the clone and the cleanup, gives exactly clone, enter, remote, step out, step out, removal. |
| Workflow.PushFailedSteps | migrate_repos.py:137-161 | A failed push, between the clone and the cleanup, gives exactly clone, enter, remote, push, step out, step out, removal. |
| Workflow.MigrateRemoteFailedTrace | migrate_repos.py:120-161 | A run whose remote-add exits non-zero issues exactly the creator's requests, the stale removal, the clone, the change into the clone, the remote, and then two steps out (the branch's own and the cleanup's) before the removal. |
| Workflow.MigratePushFailedTrace | migrate_repos.py:120-161 | A run whose push exits non-zero issues exactly the creator's requests, the stale removal, the clone, the change into the clone, the remote, the push, and then two steps out before the removal. |
| Workflow.CloneFailureEscapes | migrate_repos.py:132-161 | A concrete environment (repository exists, clone exits 128) gives `CloneFailed` at depth -1. |
| Workflow.RemoteFailureExample | migrate_repos.py:141-161 | A concrete environment (repository exists, no stale directory, remote-add exits 3) meets the conditions of the remote-failure trace. Its run issues no stale removal, then clone, enter, remote, two steps out and the removal. |
| Workflow.PushFailureExample | migrate_repos.py:148-161 | A concrete environment (repository exists, no stale directory, push exits 1) meets the conditions of the push-failure trace. Its run issues clone, enter, remote, push, two steps out and the removal. |
| Workflow.FinallyCorrected | migrate_repos.py:158-161 | The corrected cleanup ends at the start depth and issues the removal there. |
| Workflow.FinallyCorrectedMatches | migrate_repos.py:158-161 | The corrected cleanup is the written one when the attempt ended inside the clone, and the removal alone otherwise. |
| Workflow.MigrateCorrected | migrate_repos.py:110-162 | Every corrected run ends where it started and removes the clone from there. It succeeds exactly when every step succeeds. |
| Workflow.CorrectedAgrees | migrate_repos.py:158-161 | The corrected run has the same outcome as the written one. Its actions are the same when the attempt ended inside the clone. Otherwise they are the same without the extra `chdir("..")`. |
| Batch.RepoList | migrate_repos.py:170 | Every listed entry is non-empty and already stripped, and there are no more entries than lines. |
| Batch.RepoListAppend | migrate_repos.py:170 | The list of two concatenated files is the concatenation of their lists. |
| Batch.RepoListOfLine | migrate_repos.py:170 | One line contributes its stripped text exactly when it is not blank. |
| Batch.RepoListIdempotent | migrate_repos.py:170 | Listing an already listed file changes nothing. |
| Batch.RunBatch | migrate_repos.py:168-177 | A missing `repos.txt` exits with status 1 and migrates nothing. Otherwise every listed repository is migrated once, in file order, with its own environment. |
| Batch.DriftCountsEscapes | migrate_repos.py:175-176 | When every run ends at depth 0 or -1, the batch drifts up one directory per run that ends above its start. |
| Batch.AsWrittenBatchDrifts | migrate_repos.py:175-176 | With the script as written, migration `k` starts one directory higher for every earlier run that failed or raised outside the clone, and exactly those runs escape. |
| Batch.StayingPrefixes | migrate_repos.py:175-176 | If every run ends where it started, every migration in the batch starts in the starting directory, and no run escapes. |
| Batch.CorrectedBatchStaysPut | migrate_repos.py:175-176 | With the corrected cleanup, every migration starts in the script's starting directory. |

## Left out

- Subprocess execution, HTTP transport, JSON parsing, logging, `time.sleep(2)` and file reading are not modelled. Each enters the model only as its observable result, given in `Env` or in the `file` argument of `Batch.RunBatch`.
- Embedding the tokens into the clone and push URLs (migrate_repos.py:115-116) is not modelled: the URLs recorded in the trace are the plain ones. The tokens come from the process environment and are secrets.
- `os.chdir("..")` raising, for example when the parent directory is not searchable, is not modelled, and neither are `BaseException`s such as `KeyboardInterrupt`, which `except Exception` does not catch. Both depend on the process state outside the script.
- Batch.AsWrittenBatchDrifts: the depth is relative to the starting directory and does not saturate at the file-system root. At `/`, `os.chdir("..")` succeeds and stays at `/`, so a batch started fewer levels below the root than the number of escaping runs ends at the root, not at the depth the lemma gives.
- Workflow.Checkout: the repository name is treated as a child directory. `os.chdir(repo_name)` counts as one level down and `shutil.rmtree(repo_name)` as the removal of that child. The name can also be `..` (`Naming.RepoNameCanBeParent`), `.` or empty. Then the real calls act on the parent or the current directory, or fail, and the model does not follow them there.
- Workflow.Attempt: its own contract fixes the creator's requests as the first actions but not the order after them. That order is stated by `Workflow.AttemptOrder`, the contracts of `Workflow.Checkout` and `Workflow.Fetch`, and `Workflow.MigrateSuccessTrace`.
- `shutil.rmtree(repo_name, ignore_errors=True)` in the cleanup is recorded as an action and never fails, which matches `ignore_errors=True`.
- `Batch.RunBatch` takes the file as the list `readlines()` returns. Newline characters stay in the lines, and `Text.Strip` removes them as white space. Splitting the file into lines is not modelled.
- Text.ReplaceAll requires a non-empty pattern. Python's `replace` with an empty pattern inserts the replacement between characters, but the script only ever replaces non-empty literals.
- Quoting.Quote encodes characters as UTF-8 scalar values. Dafny's `char` has no surrogate code points, so Python's behaviour on lone surrogates (an encoding error) has no counterpart.
- Api.IsPrivate models a malformed 200 body (not JSON, or not an object) as a raise. The content of `response.text` in the log messages is left out.
- The `Env` of every migration is independent of where the process stands. As written, a run that escaped one level changes what `os.path.exists(repo_name)` and the clone see for later runs. The model keeps those outcomes as free inputs instead of deriving them from the drifted directory.

## Findings

| source | as written | input that shows it | evidently intended | confidence | as-written member | corrected member |
|---|---|---|---|---|---|---|
| migrate_repos.py:121-161 | The `finally` clause always runs `os.chdir("..")`. The early returns after a failed creator or a failed clone never entered the clone, and the failed remote-add and push paths already stepped out. All four end one directory above the start, and `shutil.rmtree(repo_name)` runs there. | The GitHub repository exists and `git clone --mirror` exits 128. The run ends at depth -1, and every later migration in the batch starts one directory higher. | Step up only while inside the clone, so that every run ends in the directory it started in and the removal targets the clone there. | not executed | Workflow.FailedRunEndsAboveStart | Workflow.MigrateCorrected |

=== FILE: api.dfy ===
/** The three HTTP-facing helpers of the migration: the GitHub existence
    check, the GitLab visibility check and the GitHub repository creator.
    The network is not modelled: each request is answered by a `Reply`
    given as input, which is either a response (status code and the
    `visibility` field of its JSON body) or a raised exception. */
module Api {
  import opened Naming

  /** The `visibility` member of a GitLab project document. */
  datatype Field =
    | Absent              // the document has no `visibility` member
    | Str(value: string)  // a JSON string
    | NonText             // present, but not a string (null, a number, ...)
    | Malformed           // `response.json().get(...)` raises: not a JSON object

  /** What `requests.get` or `requests.post` produced. */
  datatype Reply =
    | Response(status: int, visibility: Field)
    | ConnectionError     // the request itself raised

  /** The result of a Python call that either returns a value or raises. */
  datatype Call<T> = Returned(value: T) | Raised

  /** The HTTP requests the helpers issue. */
  datatype Request =
    | GetProject(id: string)                                   // GitLab: project document
    | GetRepo(owner: string, name: string)                     // GitHub: repository lookup
    | PostRepo(name: string, private: bool, description: string) // GitHub: repository creation

  /** `github_repo_exists`: a repository is reported to exist only on status
      200. A 404 and every other status report it absent, so a failing check
      leads to a creation attempt. */
  function RepoExists(reply: Reply): (r: Call<bool>)
    ensures r.Raised? <==> reply.ConnectionError?
    ensures r == Returned(true) <==> reply.Response? && reply.status == 200
    ensures reply.Response? && reply.status == 404 ==> r == Returned(false)
  {
    match reply
    case ConnectionError => Raised
    case Response(status, _) =>
      if status == 200 then Returned(true)
      else if status == 404 then Returned(false)
      else Returned(false)
  }

  /** `is_gitlab_repo_private`: fails closed. The repository counts as public
      only when the status is 200 and the `visibility` member is the string
      "public"; a missing member, any other value and any other status count
      as private. It raises when the request raises or a 200 body is not a
      JSON object. */
  function IsPrivate(reply: Reply): (r: Call<bool>)
    ensures r.Raised? <==> reply.ConnectionError? || (reply.status == 200 && reply.visibility.Malformed?)
    ensures r == Returned(false) <==> reply == Response(200, Str("public"))
    ensures reply.Response? && reply.status != 200 ==> r == Returned(true)
    ensures reply == Response(200, Absent) ==> r == Returned(true)
  {
    match reply
    case ConnectionError => Raised
    case Response(status, field) =>
      if status != 200 then Returned(true)
      else
        match field
        case Malformed => Raised
        case Absent => Returned("private" != "public")
        case Str(v) => Returned(v != "public")
        case NonText => Returned(true)
  }

  /** The `description` of a created repository. */
  function Description(name: string): string {
    "Migrated from GitLab: " + name
  }

  /** The requests issued by one call of `create_github_repo` and its
      outcome. */
  datatype Creation = Creation(requests: seq<Request>, result: Call<bool>)

  /** `create_github_repo(repo_name, gitlab_repo)`: first the visibility
      query, then the existence check, then, only for a missing repository,
      one creation request carrying the computed visibility. An existing
      repository is left as it is, whatever its visibility. The result is
      true when the repository existed or the creation answered 201. */
  function CreateRepo(name: string, url: string, visibility: Reply, existence: Reply, creation: Reply): (c: Creation)
    ensures 1 <= |c.requests| <= 3
    ensures c.requests[0] == GetProject(ProjectId(url))
    ensures |c.requests| >= 2 ==> c.requests[1] == GetRepo(GITHUB_USERNAME, name)
    ensures forall i :: 0 <= i < |c.requests| && c.requests[i].PostRepo? ==>
              i == 2 && IsPrivate(visibility).Returned?
              && c.requests[i] == PostRepo(name, IsPrivate(visibility).value, Description(name))
    ensures |c.requests| == 3 <==> IsPrivate(visibility).Returned? && RepoExists(existence) == Returned(false)
    ensures |c.requests| == 3 ==>
              IsPrivate(visibility).Returned?
              && c.requests[2] == PostRepo(name, IsPrivate(visibility).value, Description(name))
    ensures IsPrivate(visibility).Returned? && RepoExists(existence) == Returned(true) ==>
              c == Creation([GetProject(ProjectId(url)), GetRepo(GITHUB_USERNAME, name)], Returned(true))
    ensures c.result == Returned(true) <==>
              && IsPrivate(visibility).Returned?
              && (|| RepoExists(existence) == Returned(true)
                  || (RepoExists(existence) == Returned(false) && creation.Response? && creation.status == 201))
    ensures c.result.Raised? <==>
              IsPrivate(visibility).Raised? || existence.ConnectionError?
              || (|c.requests| == 3 && creation.ConnectionError?)
  {
    var query := GetProject(ProjectId(url));
    match IsPrivate(visibility)
    case Raised => Creation([query], Raised)
    case Returned(isPrivate) =>
      var lookup := GetRepo(GITHUB_USERNAME, name);
      match RepoExists(existence)
      case Raised => Creation([query, lookup], Raised)
      case Returned(true) => Creation([query, lookup], Returned(true))
      case Returned(false) =>
        var post := PostRepo(name, isPrivate, Description(name));
        match creation
        case ConnectionError => Creation([query, lookup, post], Raised)
        case Response(status, _) => Creation([query, lookup, post], Returned(status == 201))
  }
}

=== FILE: batch.dfy ===
/** The script's main block: read the repository list, then migrate each
    repository in turn from whatever directory the previous migration left
    the process in. */
module Batch {
  import opened Text
  import opened Options
  import opened Naming
  import opened Workflow

  /** `[line.strip() for line in lines if line.strip()]`: the stripped
      non-blank lines, in file order. Every entry is non-empty and already
      stripped, and there are no more entries than lines. */
  function RepoList(lines: seq<string>): (list: seq<string>)
    ensures |list| <= |lines|
    ensures forall k :: 0 <= k < |list| ==> list[k] != "" && Strip(list[k]) == list[k]
  {
    if |lines| == 0 then []
    else
      var line := Strip(lines[0]);
      StripIdempotent(lines[0]);
      if line != "" then [line] + RepoList(lines[1..]) else RepoList(lines[1..])
  }

  /** Reading two parts of the file one after the other gives the two lists
      one after the other. */
  lemma {:induction false} RepoListAppend(a: seq<string>, b: seq<string>)
    ensures RepoList(a + b) == RepoList(a) + RepoList(b)
  {
    if |a| == 0 {
      assert a + b == b;
    } else {
      assert (a + b)[0] == a[0] && (a + b)[1..] == a[1..] + b;
      RepoListAppend(a[1..], b);
    }
  }

  /** One line contributes its stripped text exactly when it is not blank. */
  lemma RepoListOfLine(line: string)
    ensures RepoList([line]) == if Blank(line) then [] else [Strip(line)]
  {
    StripEmptyIffBlank(line);
    assert [line][1..] == [];
  }

  /** Listing an already listed file changes nothing. */
  lemma {:induction false} RepoListIdempotent(lines: seq<string>)
    ensures RepoList(RepoList(lines)) == RepoList(lines)
  {
    if |lines| > 0 {
      var rest := RepoList(lines[1..]);
      RepoListIdempotent(lines[1..]);
      var line := Strip(lines[0]);
      if line != "" {
        StripIdempotent(lines[0]);
        assert ([line] + rest)[0] == line && ([line] + rest)[1..] == rest;
      }
    }
  }

  /* ------------------------------------------------------------ the batch */

  /** The net directory depth change of a sequence of runs: where the next
      migration starts, relative to the directory the script started in. */
  function Drift(runs: seq<Run>): int {
    if |runs| == 0 then 0 else Drift(runs[..|runs| - 1]) + runs[|runs| - 1].depth
  }

  /** The number of runs that end one directory above where they started. */
  function Escapes(runs: seq<Run>): nat {
    if |runs| == 0 then 0
    else Escapes(runs[..|runs| - 1]) + (if runs[|runs| - 1].depth == -1 then 1 else 0)
  }

  /** What the main block reports: the missing-file exit, or the
      repositories it listed and the run it made for each. Migration `k`
      starts at depth `Drift(runs[..k])`. */
  datatype Report =
    | MissingFile(exitCode: int)
    | Finished(exitCode: int, repos: seq<string>, runs: seq<Run>)

  /** The main block. `file` is the content of `repos.txt` as a list of
      lines, or `None` when the file does not exist; `world(k)` is the outcome
      of every fallible step of the k-th migration; `migrate` is the
      per-repository workflow. A missing file exits with status 1; otherwise
      every listed repository is migrated once, in order, and the script
      exits normally. */
  method RunBatch(file: Option<seq<string>>, world: nat -> Env, migrate: (string, Env) -> Run)
    returns (report: Report)
    ensures file.None? <==> report.MissingFile?
    ensures file.None? ==> report.exitCode == 1
    ensures file.Some? ==>
              && report.exitCode == 0
              && report.repos == RepoList(file.value)
              && |report.runs| == |report.repos|
              && (forall k :: 0 <= k < |report.runs| ==> report.runs[k] == migrate(report.repos[k], world(k)))
  {
    if file.None? {
      return MissingFile(1);
    }
    var repos := RepoList(file.value);
    var runs: seq<Run> := [];
    var k := 0;
    while k < |repos|
      invariant 0 <= k <= |repos|
      invariant |runs| == k
      invariant forall j :: 0 <= j < k ==> runs[j] == migrate(repos[j], world(j))
    {
      runs := runs + [migrate(repos[k], world(k))];
      k := k + 1;
    }
    return Finished(0, repos, runs);
  }

  /** When every run reports depth 0 or -1, the batch drifts up one directory
      for every run that ends above its start. */
  lemma {:induction false} DriftCountsEscapes(runs: seq<Run>)
    requires forall k :: 0 <= k < |runs| ==> runs[k].depth == 0 || runs[k].depth == -1
    ensures Drift(runs) == -(Escapes(runs) as int)
  {
    if |runs| > 0 {
      DriftCountsEscapes(runs[..|runs| - 1]);
    }
  }

  /** With the script as written, each migration starts one directory higher
      for every earlier migration that failed or was aborted outside the
      clone. */
  lemma AsWrittenBatchDrifts(repos: seq<string>, world: nat -> Env, runs: seq<Run>)
    requires |runs| == |repos|
    requires forall k :: 0 <= k < |runs| ==> runs[k] == Migrate(repos[k], world(k))
    ensures forall k :: 0 <= k <= |runs| ==> Drift(runs[..k]) == -(Escapes(runs[..k]) as int)
    ensures forall k :: 0 <= k < |runs| ==>
              (runs[k].depth == -1 <==>
                 runs[k].outcome != Migrated
                 && !(runs[k].outcome == Aborted && Enter(RepoName(repos[k])) in runs[k].trace))
  {
    forall k | 0 <= k < |runs|
      ensures runs[k].depth == 0 || runs[k].depth == -1
      ensures runs[k].depth == -1 <==>
                runs[k].outcome != Migrated
                && !(runs[k].outcome == Aborted && Enter(RepoName(repos[k])) in runs[k].trace)
    {
      MigrateDepth(repos[k], world(k));
    }
    forall k | 0 <= k <= |runs|
      ensures Drift(runs[..k]) == -(Escapes(runs[..k]) as int)
    {
      DriftCountsEscapes(runs[..k]);
    }
  }

  /** Every run ends in the directory it started in. */
  predicate Staying(runs: seq<Run>) {
    forall k :: 0 <= k < |runs| ==> runs[k].depth == 0
  }

  /** Runs that each end where they started leave the batch where it
      started. */
  lemma {:induction false} DriftOfStayingRuns(runs: seq<Run>)
    requires Staying(runs)
    ensures Drift(runs) == 0 && Escapes(runs) == 0
  {
    if |runs| > 0 {
      DriftOfStayingRuns(runs[..|runs| - 1]);
    }
  }

  /** Every prefix of a batch of staying runs leaves the batch where it
      started. */
  lemma StayingPrefixes(runs: seq<Run>)
    requires Staying(runs)
    ensures forall k :: 0 <= k <= |runs| ==> Drift(runs[..k]) == 0
    ensures Escapes(runs) == 0
  {
    forall k | 0 <= k <= |runs|
      ensures Drift(runs[..k]) == 0 && Escapes(runs[..k]) == 0
    {
      assert Staying(runs[..k]);
      DriftOfStayingRuns(runs[..k]);
    }
    assert runs[..|runs|] == runs;
  }

  /** With the corrected cleanup every migration starts in the directory the
      script started in. */
  lemma CorrectedBatchStaysPut(repos: seq<string>, world: nat -> Env, runs: seq<Run>)
    requires |runs| == |repos|
    requires forall k :: 0 <= k < |runs| ==> runs[k] == MigrateCorrected(repos[k], world(k))
    ensures forall k :: 0 <= k <= |runs| ==> Drift(runs[..k]) == 0
    ensures Escapes(runs) == 0
  {
    forall k | 0 <= k < |runs|
      ensures runs[k].depth == 0
    {
      assert runs[k] == MigrateCorrected(repos[k], world(k));
    }
    assert Staying(runs);
    StayingPrefixes(runs);
  }
}

=== FILE: naming.dfy ===
/** The names the migration derives from a GitLab clone URL: the repository
    name (used for the GitHub repository and the local clone directory) and
    the project identifier of the GitLab API. */
module Naming {
  import opened Text
  import opened Options
  import opened Quoting

  /** The GitHub account that owns the migrated repositories. */
  const GITHUB_USERNAME := "Andriy2025-out"

  /** The text stripped from a clone URL to get the GitLab project path. */
  const GITLAB_PREFIX := "https://gitlab.com/"

  const GIT_SUFFIX := ".git"

  /** `gitlab_repo.split("/")[-1].replace(".git", "")`: the last `/`-separated
      piece of the URL with every ".git" in it removed. The name never holds a
      `/`, is no longer than the URL, and is empty when the URL ends in `/`. */
  function RepoName(url: string): (name: string)
    ensures '/' !in name
    ensures |name| <= |url|
    ensures |url| > 0 && url[|url| - 1] == '/' ==> name == ""
  {
    var piece := LastPiece(url, '/');
    LastPieceSuffix(url, '/');
    assert |url| > 0 && url[|url| - 1] == '/' ==> piece == "" by {
      if |url| > 0 && url[|url| - 1] == '/' {
        LastPieceAfterTrailingSeparator(url, '/');
      }
    }
    var name := ReplaceAll(piece, GIT_SUFFIX, "");
    assert forall i :: 0 <= i < |name| ==> name[i] in piece;
    name
  }

  /** `f"https://github.com/{GITHUB_USERNAME}/{repo_name}.git"`: the GitHub
      clone URL of the repository, from which the same naming rule gives
      back the name whenever the name holds no `/` and no ".git". */
  function GitHubUrl(name: string): (url: string)
    ensures '/' !in name && !Contains(name, GIT_SUFFIX) ==> RepoName(url) == name
  {
    var url := "https://github.com/" + GITHUB_USERNAME + "/" + name + GIT_SUFFIX;
    assert '/' !in name && !Contains(name, GIT_SUFFIX) ==> RepoName(url) == name by {
      if '/' !in name && !Contains(name, GIT_SUFFIX) {
        RepoNameOfUsualUrl("https://github.com/" + GITHUB_USERNAME, name);
      }
    }
    url
  }

  /** The piece after the last separator of `p + "/" + w` is `w` when `w`
      holds no separator. */
  lemma LastPieceAfterSeparator(p: string, w: string)
    requires '/' !in w
    ensures LastPiece(p + "/" + w, '/') == w
  {
    var s := p + "/" + w;
    var last := LastPiece(s, '/');
    LastPieceSuffix(s, '/');
    assert s[|s| - |w|..] == w;
    assert s[|s| - |w| - 1] == '/';
    assert forall k :: |s| - |last| <= k < |s| ==> s[k] == last[k - (|s| - |last|)];
    assert forall k :: |s| - |w| <= k < |s| ==> s[k] == w[k - (|s| - |w|)];
    assert |last| == |w|;
  }

  /** For the usual URL, whose last piece is a project name followed by a
      single ".git", the repository name is that project name. */
  lemma RepoNameOfUsualUrl(p: string, project: string)
    requires '/' !in project
    requires !Contains(project, GIT_SUFFIX)
    ensures RepoName(p + "/" + project + GIT_SUFFIX) == project
  {
    assert p + "/" + project + GIT_SUFFIX == p + "/" + (project + GIT_SUFFIX);
    LastPieceAfterSeparator(p, project + GIT_SUFFIX);
    RemoveGitSuffix(project);
  }

  /** A last piece without ".git" is the repository name as it stands. */
  lemma RepoNameWithoutSuffix(p: string, piece: string)
    requires '/' !in piece
    requires !Contains(piece, GIT_SUFFIX)
    ensures RepoName(p + "/" + piece) == piece
  {
    LastPieceAfterSeparator(p, piece);
    ReplaceAbsent(piece, GIT_SUFFIX, "");
  }

  /** `gitlab_repo.replace("https://gitlab.com/", "").replace(".git", "")`:
      the URL without the GitLab host and without any ".git". It is no longer
      than the URL, and every character in it comes from the URL. */
  function ProjectPath(url: string): (path: string)
    ensures |path| <= |url|
    ensures forall i :: 0 <= i < |path| ==> path[i] in url
  {
    var rest := ReplaceAll(url, GITLAB_PREFIX, "");
    var path := ReplaceAll(rest, GIT_SUFFIX, "");
    assert forall i :: 0 <= i < |path| ==> path[i] in rest;
    path
  }

  /** For the usual URL, the GitLab host followed by the project path and a
      single ".git", the project path is recovered. */
  lemma ProjectPathOfUsualUrl(path: string)
    requires !Contains(path, GIT_SUFFIX)
    requires !Contains(path + GIT_SUFFIX, GITLAB_PREFIX)
    ensures ProjectPath(GITLAB_PREFIX + path + GIT_SUFFIX) == path
  {
    var url := GITLAB_PREFIX + path + GIT_SUFFIX;
    var rest := path + GIT_SUFFIX;
    assert url == GITLAB_PREFIX + rest;
    assert StartsWith(url, GITLAB_PREFIX) && url[|GITLAB_PREFIX|..] == rest;
    ReplaceAbsent(rest, GITLAB_PREFIX, "");
    assert ReplaceAll(url, GITLAB_PREFIX, "") == rest;
    RemoveGitSuffix(path);
  }

  /** A URL whose last piece is "..." followed by ".git" names the parent
      directory: the repository name is "..". */
  lemma RepoNameCanBeParent(p: string)
    ensures RepoName(p + "/" + ".." + GIT_SUFFIX) == ".."
  {
    assert !Contains("..", GIT_SUFFIX);
    RepoNameOfUsualUrl(p, "..");
  }

  /** `requests.utils.quote(repo_path, safe='')`: the project path as one
      URL path segment. It holds no `/`, and percent-decoding it gives back
      the UTF-8 bytes of the path. */
  function ProjectId(url: string): (id: string)
    ensures '/' !in id
    ensures PercentDecode(id) == Some(Utf8Encode(ProjectPath(url)))
  {
    QuoteRoundTrip(ProjectPath(url));
    Quote(ProjectPath(url))
  }

  /** The last steps of the scan below: "y.git" loses its ".git". */
  lemma RemoveTrailingGit()
    ensures ReplaceAll("y.git", GIT_SUFFIX, "") == "y"
  {
    assert "y.git"[..4][0] == 'y' != GIT_SUFFIX[0];
    assert "y.git"[1..] == GIT_SUFFIX;
    assert StartsWith(GIT_SUFFIX, GIT_SUFFIX) && GIT_SUFFIX[4..] == "";
  }

  /** The middle step of the scan below: ".gity.git" becomes "y". */
  lemma RemoveLeadingGit()
    ensures ReplaceAll(".gity.git", GIT_SUFFIX, "") == "y"
  {
    var v := ".gity.git";
    RemoveTrailingGit();
    assert StartsWith(v, GIT_SUFFIX) && v[4..] == "y.git";
  }

  /** `str.replace` removes every ".git", not only a trailing one. */
  lemma RemoveEveryGit()
    ensures ReplaceAll("x.gity.git", GIT_SUFFIX, "") == "xy"
  {
    var w := "x.gity.git";
    RemoveLeadingGit();
    assert w[1..] == ".gity.git";
    assert w[..4][0] == 'x' != GIT_SUFFIX[0];
  }

  /** The repository name of a URL whose last piece holds ".git" twice: both
      are removed. */
  lemma RepoNameRemovesInnerGit()
    ensures RepoName("https://gitlab.com/team/x.gity.git") == "xy"
  {
    assert "https://gitlab.com/team/x.gity.git" == "https://gitlab.com/team" + "/" + "x.gity.git";
    LastPieceAfterSeparator("https://gitlab.com/team", "x.gity.git");
    RemoveEveryGit();
  }
}

=== FILE: options.dfy ===
/** An optional value, for inputs that may be missing and results that may
    fail to exist. */
module Options {

  datatype Option<T> = None | Some(value: T)
}

=== FILE: quoting.dfy ===
/** Percent-encoding of a path as Python's `urllib.parse.quote(text, safe='')`
    does it: the text is encoded as UTF-8 and every byte outside the
    unreserved set of section 2.3 of RFC 3986 is written as `%` followed by
    two upper-case hexadecimal digits (section 2.1 of RFC 3986). With nothing
    declared safe, `/` is encoded as well. */
module Quoting {
  import opened Options

  newtype byte = x: int | 0 <= x < 256

  /* ------------------------------------------------------------------ UTF-8 */

  /** The UTF-8 encoding of one Unicode scalar value. */
  function Utf8(c: char): (bs: seq<byte>)
    ensures 1 <= |bs| <= 4
    ensures |bs| == 1 <==> c as int < 0x80
    ensures forall k :: 1 <= k < |bs| ==> 0x80 <= bs[k] < 0xC0
    ensures |bs| > 1 ==> bs[0] >= 0xC0
  {
    var n := c as int;
    if n < 0x80 then [n as byte]
    else if n < 0x800 then [(0xC0 + n / 64) as byte, (0x80 + n % 64) as byte]
    else if n < 0x1_0000 then
      [(0xE0 + n / 4096) as byte, (0x80 + n / 64 % 64) as byte, (0x80 + n % 64) as byte]
    else
      [(0xF0 + n / 262144) as byte, (0x80 + n / 4096 % 64) as byte,
       (0x80 + n / 64 % 64) as byte, (0x80 + n % 64) as byte]
  }

  /** The scalar value a well-formed UTF-8 sequence of one to four bytes
      stands for: the payload bits of the lead byte followed by six bits from
      each continuation byte. */
  function Utf8Value(bs: seq<byte>): int
    requires 1 <= |bs| <= 4
  {
    var payload := if |bs| == 1 then bs[0] as int
                   else if |bs| == 2 then bs[0] as int - 0xC0
                   else if |bs| == 3 then bs[0] as int - 0xE0
                   else bs[0] as int - 0xF0;
    ContinuationBits(payload, bs[1..])
  }

  /** Appends six payload bits of every continuation byte to `acc`. */
  function ContinuationBits(acc: int, rest: seq<byte>): int
    decreases |rest|
  {
    if |rest| == 0 then acc else ContinuationBits(acc * 64 + (rest[0] as int - 0x80), rest[1..])
  }

  /** Decoding the encoding of a character gives its scalar value back. */
  lemma Utf8RoundTrip(c: char)
    ensures Utf8Value(Utf8(c)) == c as int
  {
    var n := c as int;
    if n < 0x80 {
      assert Utf8(c)[1..] == [];
    } else if n < 0x800 {
      Utf8RoundTripTwo(c);
    } else if n < 0x1_0000 {
      Utf8RoundTripThree(c);
    } else {
      Utf8RoundTripFour(c);
    }
  }

  lemma Utf8RoundTripTwo(c: char)
    requires 0x80 <= c as int < 0x800
    ensures Utf8Value(Utf8(c)) == c as int
  {
    var n := c as int;
    var bs := Utf8(c);
    assert bs[1..] == [bs[1]] && bs[1..][1..] == [];
    assert bs[0] as int - 0xC0 == n / 64 && bs[1] as int - 0x80 == n % 64;
    assert Utf8Value(bs) == ContinuationBits(n / 64 * 64 + n % 64, []);
  }

  lemma Utf8RoundTripThree(c: char)
    requires 0x800 <= c as int < 0x1_0000
    ensures Utf8Value(Utf8(c)) == c as int
  {
    var n := c as int;
    var bs := Utf8(c);
    var q1 := n / 64;
    assert n / 4096 == q1 / 64;
    assert q1 == n / 4096 * 64 + n / 64 % 64;
    assert bs[1..][1..] == [bs[2]] && [bs[2]][1..] == [];
    assert Utf8Value(bs) == ContinuationBits(q1, [bs[2]]);
    assert ContinuationBits(q1, [bs[2]]) == ContinuationBits(q1 * 64 + n % 64, []);
  }

  lemma Utf8RoundTripFour(c: char)
    requires c as int >= 0x1_0000
    ensures Utf8Value(Utf8(c)) == c as int
  {
    var n := c as int;
    var bs := Utf8(c);
    var q2, q1, q0 := n / 4096, n / 64, n;
    assert q2 == n / 262144 * 64 + n / 4096 % 64;
    assert q1 == q2 * 64 + n / 64 % 64;
    assert q0 == q1 * 64 + n % 64;
    assert bs[1..][1..] == [bs[2], bs[3]];
    assert bs[1..][1..][1..] == [bs[3]];
    assert Utf8Value(bs) == ContinuationBits(q2, [bs[2], bs[3]]);
    assert ContinuationBits(q2, [bs[2], bs[3]]) == ContinuationBits(q1, [bs[3]]);
    assert [bs[3]][1..] == [];
    assert ContinuationBits(q1, [bs[3]]) == ContinuationBits(q0, []);
  }

  /** The UTF-8 encoding of a string, character by character. */
  function Utf8Encode(s: string): (bs: seq<byte>)
    ensures |bs| >= |s|
    ensures |bs| == |s| <==> forall i :: 0 <= i < |s| ==> s[i] as int < 0x80
    ensures |bs| == |s| ==> forall i :: 0 <= i < |s| ==> bs[i] as int == s[i] as int
  {
    if |s| == 0 then [] else Utf8(s[0]) + Utf8Encode(s[1..])
  }

  /* ------------------------------------------------------ percent-encoding */

  /** The unreserved characters of section 2.3 of RFC 3986, the only bytes
      Python's `quote` never encodes: letters, digits, `-`, `.`, `_`, `~`. */
  predicate Unreserved(n: int) {
    || 'A' as int <= n <= 'Z' as int
    || 'a' as int <= n <= 'z' as int
    || '0' as int <= n <= '9' as int
    || n == '-' as int || n == '.' as int || n == '_' as int || n == '~' as int
  }

  const HEX_DIGITS := "0123456789ABCDEF"

  /** The value of a hexadecimal digit of either case, or -1 for any other
      character. */
  function HexValue(c: char): (v: int)
    ensures -1 <= v < 16
  {
    if '0' <= c <= '9' then c as int - '0' as int
    else if 'A' <= c <= 'F' then c as int - 'A' as int + 10
    else if 'a' <= c <= 'f' then c as int - 'a' as int + 10
    else -1
  }

  /** One byte as it appears in the quoted text: an unreserved byte as its
      own character, any other as `%` and two hexadecimal digits. */
  function EncodeByte(b: byte): (t: string)
    ensures forall i :: 0 <= i < |t| ==> t[i] as int < 0x80 && t[i] != '/'
    ensures forall i :: 0 <= i < |t| ==> t[i] == '%' || Unreserved(t[i] as int)
    ensures |t| == 1 <==> Unreserved(b as int)
  {
    if Unreserved(b as int) then [b as int as char]
    else ['%', HEX_DIGITS[b as int / 16], HEX_DIGITS[b as int % 16]]
  }

  /** Python's `quote_from_bytes(bs, safe='')`: the text uses only `%` and
      unreserved characters, so no reserved delimiter (`/`, `?`, `#`, ...)
      appears literally. */
  function QuoteBytes(bs: seq<byte>): (t: string)
    ensures forall i :: 0 <= i < |t| ==> t[i] as int < 0x80 && t[i] != '/'
    ensures forall i :: 0 <= i < |t| ==> t[i] == '%' || Unreserved(t[i] as int)
  {
    if |bs| == 0 then ""
    else
      var head := EncodeByte(bs[0]);
      var rest := QuoteBytes(bs[1..]);
      assert forall i :: |head| <= i < |head + rest| ==> (head + rest)[i] == rest[i - |head|];
      head + rest
  }

  /** Python's `quote(s, safe='')`: the quoted text is plain ASCII made of
      `%` and unreserved characters only, so it can stand as a single path
      segment. */
  function Quote(s: string): (t: string)
    ensures forall i :: 0 <= i < |t| ==> t[i] as int < 0x80
    ensures forall i :: 0 <= i < |t| ==> t[i] == '%' || Unreserved(t[i] as int)
    ensures '/' !in t
  {
    QuoteBytes(Utf8Encode(s))
  }

  /** Percent-decoding (section 2.1 of RFC 3986): `%` with two hexadecimal
      digits stands for that byte, any other ASCII character for itself.
      A stray `%` or a non-ASCII character makes the text undecodable. */
  function PercentDecode(t: string): Option<seq<byte>>
    decreases |t|
  {
    if |t| == 0 then Some([])
    else if t[0] == '%' then
      if |t| < 3 || HexValue(t[1]) < 0 || HexValue(t[2]) < 0 then None
      else
        match PercentDecode(t[3..])
        case None => None
        case Some(rest) => Some([(HexValue(t[1]) * 16 + HexValue(t[2])) as byte] + rest)
    else if t[0] as int < 0x80 then
      match PercentDecode(t[1..])
      case None => None
      case Some(rest) => Some([t[0] as int as byte] + rest)
    else None
  }

  /** Decoding sees one encoded byte, then carries on with the rest. */
  lemma DecodeEncodedByte(b: byte, rest: string)
    ensures PercentDecode(EncodeByte(b) + rest) ==
            match PercentDecode(rest)
            case None => None
            case Some(tail) => Some([b] + tail)
  {
    if Unreserved(b as int) {
      var t := EncodeByte(b) + rest;
      assert t[0] == b as int as char && t[1..] == rest;
    } else {
      DecodeEscapedByte(b, rest);
    }
  }

  /** Decoding a `%XX` escape gives the escaped byte. */
  lemma DecodeEscapedByte(b: byte, rest: string)
    requires !Unreserved(b as int)
    ensures PercentDecode(EncodeByte(b) + rest) ==
            match PercentDecode(rest)
            case None => None
            case Some(tail) => Some([b] + tail)
  {
    var t := EncodeByte(b) + rest;
    var hi := b as int / 16;
    var lo := b as int % 16;
    assert HexValue(HEX_DIGITS[hi]) == hi;
    assert HexValue(HEX_DIGITS[lo]) == lo;
    assert t[0] == '%' && t[1] == HEX_DIGITS[hi] && t[2] == HEX_DIGITS[lo];
    assert t[3..] == rest;
  }

  /** Decoding the quoted bytes gives the bytes back. */
  lemma {:induction false} QuoteBytesRoundTrip(bs: seq<byte>)
    ensures PercentDecode(QuoteBytes(bs)) == Some(bs)
  {
    if |bs| > 0 {
      QuoteBytesRoundTrip(bs[1..]);
      DecodeEncodedByte(bs[0], QuoteBytes(bs[1..]));
      assert [bs[0]] + bs[1..] == bs;
    }
  }

  /** Decoding the project identifier gives the UTF-8 bytes of the path. */
  lemma QuoteRoundTrip(s: string)
    ensures PercentDecode(Quote(s)) == Some(Utf8Encode(s))
  {
    QuoteBytesRoundTrip(Utf8Encode(s));
  }

  /** A text of unreserved ASCII characters is left as it is. */
  lemma {:induction false} QuoteUnreserved(s: string)
    requires forall i :: 0 <= i < |s| ==> Unreserved(s[i] as int)
    ensures Quote(s) == s
  {
    if |s| > 0 {
      QuoteUnreserved(s[1..]);
      assert Utf8Encode(s) == [s[0] as int as byte] + Utf8Encode(s[1..]);
      assert Quote(s) == [s[0]] + Quote(s[1..]);
      assert [s[0]] + s[1..] == s;
    }
  }
}

=== FILE: text.dfy ===
/** The three Python string operations the migration script relies on,
    modelled exactly: `str.replace` with a non-empty pattern, `str.split`
    on a one-character separator, and `str.strip` with no argument. */
module Text {

  /** True when `p` is a prefix of `s`. */
  predicate StartsWith(s: string, p: string) {
    |p| <= |s| && s[..|p|] == p
  }

  /** Python's `p in s`: `p` occurs in `s` at some position. */
  predicate Contains(s: string, p: string) {
    exists i :: 0 <= i <= |s| && StartsWith(s[i..], p)
  }

  /* ---------------------------------------------------------------- replace */

  /** Python's `s.replace(pattern, replacement)` for a non-empty pattern: one
      left-to-right scan that replaces each non-overlapping occurrence. Text
      produced by the replacement is never rescanned. */
  function ReplaceAll(s: string, pattern: string, replacement: string): (r: string)
    requires |pattern| > 0
    ensures replacement == "" ==> |r| <= |s|
    ensures replacement == "" ==> forall i :: 0 <= i < |r| ==> r[i] in s
    decreases |s|
  {
    if |s| == 0 then ""
    else if StartsWith(s, pattern) then
      var rest := ReplaceAll(s[|pattern|..], pattern, replacement);
      assert forall i :: 0 <= i < |rest| && replacement == "" ==> rest[i] in s[|pattern|..];
      replacement + rest
    else
      var rest := ReplaceAll(s[1..], pattern, replacement);
      assert forall i :: 0 <= i < |rest| && replacement == "" ==> rest[i] in s[1..];
      [s[0]] + rest
  }

  /** Text without an occurrence of the pattern is left unchanged. */
  lemma {:induction false} ReplaceAbsent(s: string, pattern: string, replacement: string)
    requires |pattern| > 0
    requires !Contains(s, pattern)
    ensures ReplaceAll(s, pattern, replacement) == s
    decreases |s|
  {
    if |s| > 0 {
      assert s[0..] == s;
      assert !StartsWith(s, pattern);
      forall i | 0 <= i <= |s[1..]|
        ensures !StartsWith(s[1..][i..], pattern)
      {
        assert s[1..][i..] == s[i + 1..];
      }
      ReplaceAbsent(s[1..], pattern, replacement);
      assert [s[0]] + s[1..] == s;
    }
  }

  /** Removing the pattern from text with an occurrence at `from` shortens
      it by at least the pattern's length: the scan either removes that
      occurrence or an earlier one that overlaps it. */
  lemma {:induction false} ReplaceRemovesOccurrence(s: string, pattern: string, from: nat)
    requires |pattern| > 0 && from <= |s| && StartsWith(s[from..], pattern)
    ensures |ReplaceAll(s, pattern, "")| <= |s| - |pattern|
    decreases |s|
  {
    if !StartsWith(s, pattern) {
      assert from > 0;
      assert s[1..][from - 1..] == s[from..];
      ReplaceRemovesOccurrence(s[1..], pattern, from - 1);
    }
  }

  /** Removing a pattern leaves the text unchanged exactly when the pattern
      does not occur in it. */
  lemma ReplaceUnchangedIffAbsent(s: string, pattern: string)
    requires |pattern| > 0
    ensures ReplaceAll(s, pattern, "") == s <==> !Contains(s, pattern)
  {
    if Contains(s, pattern) {
      var i :| 0 <= i <= |s| && StartsWith(s[i..], pattern);
      ReplaceRemovesOccurrence(s, pattern, i);
    } else {
      ReplaceAbsent(s, pattern, "");
    }
  }

  /** Removing ".git" from a text that ends in ".git" and has no other
      occurrence yields the text without that suffix: ".git" has no proper
      prefix that is also its suffix, so no match can straddle the boundary. */
  lemma {:induction false} RemoveGitSuffix(t: string)
    requires !Contains(t, ".git")
    ensures ReplaceAll(t + ".git", ".git", "") == t
    decreases |t|
  {
    var s := t + ".git";
    if |t| == 0 {
      assert StartsWith(s, ".git");
      assert s[4..] == "";
    } else {
      assert s[|t|] == '.';
      if |t| >= 4 {
        assert t[0..] == t;
        assert s[..4] == t[..4];
        assert !StartsWith(s, ".git");
      } else {
        assert ".git"[|t|] != '.';
        assert !StartsWith(s, ".git");
      }
      forall i | 0 <= i <= |t[1..]|
        ensures !StartsWith(t[1..][i..], ".git")
      {
        assert t[1..][i..] == t[i + 1..];
      }
      RemoveGitSuffix(t[1..]);
      assert s[1..] == t[1..] + ".git";
      assert [t[0]] + t[1..] == t;
    }
  }

  /* ------------------------------------------------------------------ split */

  /** Python's `sep.join(parts)` for a one-character separator. */
  function Join(parts: seq<string>, sep: char): string
    requires |parts| >= 1
  {
    if |parts| == 1 then parts[0] else parts[0] + [sep] + Join(parts[1..], sep)
  }

  /** Position of the first `c` in `s`, or `|s|` when there is none. */
  function IndexOf(s: string, c: char): (i: nat)
    ensures i <= |s|
    ensures i < |s| ==> s[i] == c
    ensures forall j :: 0 <= j < i ==> s[j] != c
  {
    if |s| == 0 || s[0] == c then 0 else 1 + IndexOf(s[1..], c)
  }

  /** A suffix of a suffix of `s` is a suffix of `s`. */
  lemma SuffixOfSuffix(s: string, i: nat, n: nat)
    requires i <= |s| && n <= |s| - i
    ensures s[|s| - n..] == s[i..][|s| - i - n..]
  {
    assert s[i..][|s| - i - n..] == s[i + (|s| - i - n)..];
  }

  /** Python's `s.split(sep)` for a one-character separator: the pieces
      between separators, always at least one, none holding the separator. */
  function Split(s: string, sep: char): (parts: seq<string>)
    ensures |parts| >= 1
    ensures forall k :: 0 <= k < |parts| ==> sep !in parts[k]
    decreases |s|
  {
    var i := IndexOf(s, sep);
    if i == |s| then [s]
    else
      var rest := Split(s[i + 1..], sep);
      assert sep !in s[..i];
      var parts := [s[..i]] + rest;
      assert forall k :: 1 <= k < |parts| ==> parts[k] == rest[k - 1];
      parts
  }

  /** Joining the pieces of `s` with the separator gives `s` back. */
  lemma {:induction false} SplitJoin(s: string, sep: char)
    ensures Join(Split(s, sep), sep) == s
    decreases |s|
  {
    var i := IndexOf(s, sep);
    if i < |s| {
      var rest := Split(s[i + 1..], sep);
      SplitJoin(s[i + 1..], sep);
      var parts := Split(s, sep);
      assert parts == [s[..i]] + rest;
      assert parts[1..] == rest;
      assert s == s[..i] + [sep] + s[i + 1..];
    }
  }

  /** Python's `s.split(sep)[-1]`: the text after the last separator. */
  function LastPiece(s: string, sep: char): (piece: string)
    ensures sep !in piece
  {
    var parts := Split(s, sep);
    parts[|parts| - 1]
  }

  /** The last piece is a suffix of `s`, and unless it is all of `s` a
      separator stands right before it. */
  lemma {:induction false} LastPieceSuffix(s: string, sep: char)
    ensures var last := LastPiece(s, sep);
            && |last| <= |s| && s[|s| - |last|..] == last
            && (|last| < |s| ==> s[|s| - |last| - 1] == sep)
    decreases |s|
  {
    var i := IndexOf(s, sep);
    if i < |s| {
      LastPieceSuffix(s[i + 1..], sep);
      LastPieceAfterFirst(s, sep, i);
      var last := LastPiece(s[i + 1..], sep);
      SuffixOfSuffix(s, i + 1, |last|);
      assert |last| < |s[i + 1..]| ==> s[i + 1..][|s[i + 1..]| - |last| - 1] == s[|s| - |last| - 1];
    } else {
      assert s[|s| - |s|..] == s;
    }
  }

  /** The last piece of a text holding the separator, whose first
      occurrence is at `i`, is the last piece of what follows it. */
  lemma LastPieceAfterFirst(s: string, sep: char, i: nat)
    requires i == IndexOf(s, sep) && i < |s|
    ensures LastPiece(s, sep) == LastPiece(s[i + 1..], sep)
  {
    var rest := Split(s[i + 1..], sep);
    assert Split(s, sep) == [s[..i]] + rest;
  }

  /** A text that ends in the separator has an empty last piece. */
  lemma LastPieceAfterTrailingSeparator(s: string, sep: char)
    requires |s| > 0 && s[|s| - 1] == sep
    ensures LastPiece(s, sep) == ""
  {
    LastPieceSuffix(s, sep);
    var last := LastPiece(s, sep);
    var tail := s[|s| - |last|..];
    var c := s[|s| - 1];
    assert |last| == 0 || c in tail;
  }

  /* ------------------------------------------------------------------ strip */

  /** Python's `str.isspace` for one character: the ASCII controls TAB..CR and
      FS..US, the space, NEL, NO-BREAK SPACE and the Unicode space separators. */
  predicate IsSpace(c: char) {
    var n := c as int;
    || 0x09 <= n <= 0x0D || 0x1C <= n <= 0x20
    || n == 0x85 || n == 0xA0 || n == 0x1680
    || 0x2000 <= n <= 0x200A
    || n == 0x2028 || n == 0x2029 || n == 0x202F || n == 0x205F || n == 0x3000
  }

  /** Every character of `s` is white space. */
  predicate Blank(s: string) {
    forall i :: 0 <= i < |s| ==> IsSpace(s[i])
  }

  /** Length of the white space run at the start of `s`. */
  function LeadingBlank(s: string): (k: nat)
    ensures k <= |s| && Blank(s[..k])
    ensures k < |s| ==> !IsSpace(s[k])
  {
    if |s| > 0 && IsSpace(s[0]) then
      var k := 1 + LeadingBlank(s[1..]);
      assert s[..k] == [s[0]] + s[1..][..k - 1];
      k
    else 0
  }

  /** Length of the white space run at the end of `s`. */
  function TrailingBlank(s: string): (k: nat)
    ensures k <= |s| && Blank(s[|s| - k..])
    ensures k < |s| ==> !IsSpace(s[|s| - 1 - k])
  {
    if |s| > 0 && IsSpace(s[|s| - 1]) then
      var init := s[..|s| - 1];
      var j := TrailingBlank(init);
      assert s[|s| - 1 - j..] == init[|init| - j..] + [s[|s| - 1]];
      assert j < |init| ==> s[|s| - 2 - j] == init[|init| - 1 - j];
      1 + j
    else 0
  }

  /** Python's `s.strip()`: `s` is the stripped text preceded by its leading
      white space and followed by a blank tail; a non-empty result neither
      starts nor ends with white space. */
  function Strip(s: string): (r: string)
    ensures LeadingBlank(s) + |r| <= |s|
    ensures s[LeadingBlank(s)..LeadingBlank(s) + |r|] == r
    ensures Blank(s[LeadingBlank(s) + |r|..])
    ensures r != "" ==> !IsSpace(r[0]) && !IsSpace(r[|r| - 1])
  {
    var a := LeadingBlank(s);
    var t := s[a..];
    var r := t[..|t| - TrailingBlank(t)];
    assert s[a + |r|..] == t[|r|..];
    assert r != "" ==> r[0] == s[a];
    r
  }

  /** Stripping leaves nothing exactly when the text is blank. */
  lemma StripEmptyIffBlank(s: string)
    ensures Strip(s) == "" <==> Blank(s)
  {
    var a := LeadingBlank(s);
    if Strip(s) == "" {
      assert s == s[..a] + s[a..];
    }
  }

  /** Stripping twice is the same as stripping once. */
  lemma StripIdempotent(s: string)
    ensures Strip(Strip(s)) == Strip(s)
  {
    var r := Strip(s);
    var q := Strip(r);
    if r != "" {
      assert LeadingBlank(r) == 0;
      assert |q| == |r|;
      assert q == r[..|r|] == r;
    }
  }
}

=== FILE: workflow.dfy ===
/** `migrate_repo`: the per-repository step sequence with its `try`, `except`
    and `finally`. Every effect on the outside world becomes an `Action` in a
    trace; the outcome of every fallible step is an input (`Env`). Besides
    the trace, a run reports the net change of the process's working
    directory depth (+1 for entering the clone, -1 for `chdir("..")`), and the
    log message that tells how the attempt ended. */
module Workflow {
  import opened Naming
  import opened Api

  /** An `os` or `shutil` call: it completes or raises. */
  datatype Effect = Done | Fails

  /** `run_command`: the exit status of the shell command, or an exception
      raised by `subprocess.run` itself. */
  datatype Command = Exited(code: int) | CommandRaised

  /** The outcome of every fallible step of one migration. A step that the
      workflow never reaches leaves its entry unused. */
  datatype Env = Env(
    visibility: Reply,    // GET of the GitLab project
    existence: Reply,     // GET of the GitHub repository
    creation: Reply,      // POST creating the GitHub repository
    staleDir: bool,       // `os.path.exists(repo_name)` before cloning
    staleRemoval: Effect, // `shutil.rmtree(repo_name)` of that directory
    clone: Command,       // `git clone --mirror`
    enter: Effect,        // `os.chdir(repo_name)`
    remoteAdd: Command,   // `git remote add github`
    push: Command)        // `git push --mirror github`

  /** The effects `migrate_repo` has on the world, in issue order. An `Enter`
      is recorded only when the directory change took effect. */
  datatype Action =
    | Http(request: Request)
    | RemoveTree(dir: string)
    | CloneMirror(source: string, dir: string)
    | Enter(dir: string)
    | Leave
    | AddRemote(url: string)
    | PushMirror

  /** How the attempt ended, as the log reports it. `Aborted` is an exception
      caught by the `except Exception` clause. */
  datatype Outcome = Migrated | CreateFailed | CloneFailed | RemoteFailed | PushFailed | Aborted

  /** One run: the actions issued, the net working directory depth change
      and the outcome. */
  datatype Run = Run(trace: seq<Action>, depth: int, outcome: Outcome)

  /* -------------------------------------------------------- directory depth */

  function Delta(a: Action): int {
    match a
    case Enter(_) => 1
    case Leave => -1
    case _ => 0
  }

  /** The net depth change of a sequence of actions. */
  function NetDepth(t: seq<Action>): int {
    if |t| == 0 then 0 else Delta(t[0]) + NetDepth(t[1..])
  }

  lemma {:induction false} NetDepthAppend(a: seq<Action>, b: seq<Action>)
    ensures NetDepth(a + b) == NetDepth(a) + NetDepth(b)
  {
    if |a| > 0 {
      assert (a + b)[1..] == a[1..] + b;
      NetDepthAppend(a[1..], b);
    } else {
      assert a + b == b;
    }
  }

  /** The depth, relative to the start, at which action `i` runs: the sum
      of the changes of the actions before it. */
  function DepthAt(t: seq<Action>, i: nat): int
    requires i <= |t|
  {
    if i == 0 then 0 else DepthAt(t, i - 1) + Delta(t[i - 1])
  }

  /** The depth at action `i` is the net depth of the actions before it. */
  lemma {:induction false} DepthAtPrefix(t: seq<Action>, i: nat)
    requires i <= |t|
    ensures DepthAt(t, i) == NetDepth(t[..i])
  {
    if i > 0 {
      DepthAtPrefix(t, i - 1);
      NetDepthAppend(t[..i - 1], [t[i - 1]]);
      assert t[..i] == t[..i - 1] + [t[i - 1]];
      assert [t[i - 1]][1..] == [];
    }
  }

  /** The HTTP requests of the creator as actions. */
  function HttpActions(requests: seq<Request>): (t: seq<Action>)
    ensures |t| == |requests|
    ensures forall i :: 0 <= i < |t| ==> t[i] == Http(requests[i])
    ensures NetDepth(t) == 0
  {
    if |requests| == 0 then []
    else
      var t := [Http(requests[0])] + HttpActions(requests[1..]);
      assert t[1..] == HttpActions(requests[1..]);
      t
  }

  /** Actions that only happen while the process is inside the clone. */
  predicate InsideClone(a: Action) {
    a.Enter? || a.AddRemote? || a.PushMirror?
  }

  /** Nothing but HTTP requests. */
  predicate OnlyHttp(t: seq<Action>) {
    forall i :: 0 <= i < |t| ==> t[i].Http?
  }

  /** The clone is never entered, and no remote or push is issued. */
  predicate NeverInside(t: seq<Action>) {
    forall i :: 0 <= i < |t| ==> !InsideClone(t[i])
  }

  /** No push is issued. */
  predicate NoPush(t: seq<Action>) {
    forall i :: 0 <= i < |t| ==> !t[i].PushMirror?
  }

  /** The `create_github_repo(repo_name, gitlab_repo)` call `migrate_repo`
      makes: the visibility query is about the URL's project, and the lookup
      and any creation request are about the repository name. */
  function Creator(url: string, env: Env): (c: Creation)
    ensures |c.requests| >= 1 && c.requests[0] == GetProject(ProjectId(url))
    ensures |c.requests| >= 2 ==> c.requests[1] == GetRepo(GITHUB_USERNAME, RepoName(url))
    ensures forall i :: 0 <= i < |c.requests| && c.requests[i].PostRepo? ==>
              c.requests[i].name == RepoName(url) && c.requests[i].description == Description(RepoName(url))
  {
    CreateRepo(RepoName(url), url, env.visibility, env.existence, env.creation)
  }

  /** Every fallible step succeeds. */
  predicate AllSucceed(url: string, env: Env) {
    && Creator(url, env).result == Returned(true)
    && !(env.staleDir && env.staleRemoval.Fails?)
    && env.clone == Exited(0)
    && env.enter == Done
    && env.remoteAdd == Exited(0)
    && env.push == Exited(0)
  }

  /** A push, if any, is the second action. */
  predicate PushOnlySecond(t: seq<Action>) {
    forall i :: 0 <= i < |t| && t[i].PushMirror? ==> i == 1
  }

  /** A step out of the directory, if any, is the last action. */
  predicate LeaveOnlyLast(t: seq<Action>) {
    forall i :: 0 <= i < |t| - 1 ==> !t[i].Leave?
  }

  /* ----------------------------------------------------------- the attempt */

  /** Steps 4 and 5 of `migrate_repo`, issued from inside the clone: add the
      GitHub remote, then push. A failed command steps back out of the clone
      and returns; an exception leaves the process inside it. `depth` is the
      depth relative to the start of `migrate_repo` (1 on entry). */
  function Publish(name: string, env: Env): (r: Run)
    ensures forall i :: 0 <= i < |r.trace| ==> r.trace[i].AddRemote? || r.trace[i].PushMirror? || r.trace[i].Leave?
    ensures |r.trace| >= 1 && r.trace[0] == AddRemote(GitHubUrl(name))
    ensures PushOnlySecond(r.trace) && LeaveOnlyLast(r.trace)
    ensures r.trace[|r.trace| - 1] == Leave <==> r.outcome == RemoteFailed || r.outcome == PushFailed
    ensures r.outcome == Migrated ==> r.trace == [AddRemote(GitHubUrl(name)), PushMirror]
    ensures r.outcome == RemoteFailed ==> r.trace == [AddRemote(GitHubUrl(name)), Leave]
    ensures r.outcome == PushFailed ==> r.trace == [AddRemote(GitHubUrl(name)), PushMirror, Leave]
    ensures env.remoteAdd.CommandRaised? ==> r.trace == [AddRemote(GitHubUrl(name))]
    ensures env.remoteAdd == Exited(0) ==> |r.trace| >= 2 && r.trace[1] == PushMirror
    ensures env.remoteAdd != Exited(0) ==> forall i :: 0 <= i < |r.trace| ==> !r.trace[i].PushMirror?
    ensures r.outcome == Migrated <==> env.remoteAdd == Exited(0) && env.push == Exited(0)
    ensures r.outcome == RemoteFailed <==> env.remoteAdd.Exited? && env.remoteAdd.code != 0
    ensures r.outcome == PushFailed <==> env.remoteAdd == Exited(0) && env.push.Exited? && env.push.code != 0
    ensures r.outcome == Aborted <==> env.remoteAdd.CommandRaised? || (env.remoteAdd == Exited(0) && env.push.CommandRaised?)
    ensures r.outcome != CreateFailed && r.outcome != CloneFailed
    ensures r.depth == (if r.outcome == Migrated || r.outcome == Aborted then 1 else 0)
    ensures 1 + NetDepth(r.trace) == r.depth
  {
    var add := AddRemote(GitHubUrl(name));
    PublishDepths(add);
    match env.remoteAdd
    case CommandRaised => Run([add], 1, Aborted)
    case Exited(code) =>
      if code != 0 then Run([add, Leave], 0, RemoteFailed)
      else
        match env.push
        case CommandRaised => Run([add, PushMirror], 1, Aborted)
        case Exited(code) =>
          if code != 0 then Run([add, PushMirror, Leave], 0, PushFailed)
          else Run([add, PushMirror], 1, Migrated)
  }

  /** The net depths of the four traces a publish can leave. */
  lemma PublishDepths(add: Action)
    requires add.AddRemote?
    ensures NetDepth([add]) == 0 && NetDepth([add, PushMirror]) == 0
    ensures NetDepth([add, Leave]) == -1 && NetDepth([add, PushMirror, Leave]) == -1
  {
    assert [add][1..] == [];
    assert [add, Leave][1..] == [Leave] && [Leave][1..] == [];
    assert [add, PushMirror][1..] == [PushMirror] && [PushMirror][1..] == [];
    assert [add, PushMirror, Leave][1..] == [PushMirror, Leave] && [PushMirror, Leave][1..] == [Leave];
  }

  /** The removal of a stale clone directory, issued when one exists. */
  function StaleRemoval(name: string, env: Env): (t: seq<Action>)
    ensures |t| <= 1 && NetDepth(t) == 0
    ensures t != [] <==> env.staleDir
  {
    if env.staleDir then [RemoveTree(name)] else []
  }

  /** No HTTP request. */
  predicate NoHttp(t: seq<Action>) {
    forall i :: 0 <= i < |t| ==> !t[i].Http?
  }

  /** The order of a fetch: the clone comes first; a failed or raising
      clone, or a failed change of directory, stops right after it;
      otherwise the change into the clone and the remote follow. */
  predicate FetchOrdered(t: seq<Action>, url: string, name: string, env: Env) {
    && (!(env.clone == Exited(0) && env.enter == Done) ==> t == [CloneMirror(url, name)])
    && (env.clone == Exited(0) && env.enter == Done ==>
          |t| >= 3 && t[0] == CloneMirror(url, name) && t[1] == Enter(name) && t[2] == AddRemote(GitHubUrl(name)))
  }

  /** The order of a checkout: the stale removal (if any) comes first; a
      failed removal stops there; otherwise the clone follows it. */
  predicate CheckoutOrdered(t: seq<Action>, url: string, name: string, env: Env) {
    var pre := StaleRemoval(name, env);
    && |t| >= |pre| && t[..|pre|] == pre
    && (env.staleDir && env.staleRemoval.Fails? ==> t == pre)
    && (!(env.staleDir && env.staleRemoval.Fails?) ==> |t| > |pre| && t[|pre|] == CloneMirror(url, name))
  }

  /** The actions of a fetch in which every step succeeds: the clone, the
      change into it, the remote, the push. */
  function Fetched(url: string, name: string): seq<Action> {
    [CloneMirror(url, name), Enter(name), AddRemote(GitHubUrl(name)), PushMirror]
  }

  /** A fetch whose clone and change into the clone succeed: the clone, the
      change into it, then the publish from inside. */
  function FetchInside(url: string, name: string, env: Env): (r: Run)
    ensures NoHttp(r.trace)
    ensures |r.trace| >= 3 && r.trace[0] == CloneMirror(url, name) && r.trace[1] == Enter(name)
    ensures r.trace[2] == AddRemote(GitHubUrl(name))
    ensures env.remoteAdd != Exited(0) ==> NoPush(r.trace)
    ensures r.outcome == Publish(name, env).outcome
    ensures r.depth == Publish(name, env).depth
    ensures r.trace[2..] == Publish(name, env).trace
    ensures NetDepth(r.trace) == r.depth
    ensures r.outcome == Migrated ==> r.trace == Fetched(url, name)
  {
    var p := Publish(name, env);
    EnteredThen(url, name, p.trace);
    Run([CloneMirror(url, name), Enter(name)] + p.trace, p.depth, p.outcome)
  }

  /** The clone and the change into it, followed by any actions: those
      actions come from index 2 on, the change adds one level, and neither
      step is an HTTP request or a push. */
  lemma EnteredThen(url: string, name: string, t: seq<Action>)
    ensures var u := [CloneMirror(url, name), Enter(name)] + t;
            && u[2..] == t
            && NetDepth(u) == 1 + NetDepth(t)
            && (NoHttp(t) ==> NoHttp(u))
            && (NoPush(t) ==> NoPush(u))
  {
    var entered := [CloneMirror(url, name), Enter(name)];
    NetDepthAppend(entered, t);
    assert entered[1..] == [Enter(name)] && [Enter(name)][1..] == [];
    assert forall i :: 2 <= i < |entered + t| ==> (entered + t)[i] == t[i - 2];
  }

  /** Step 3 of `migrate_repo` and what follows it inside the clone: clone,
      enter the clone, then publish. A failed clone returns at once; a raised
      exception ends the attempt where the process stands. */
  function Fetch(url: string, name: string, env: Env): (r: Run)
    ensures NoHttp(r.trace)
    ensures |r.trace| >= 1 && r.trace[0] == CloneMirror(url, name)
    ensures env.clone != Exited(0) ==> NeverInside(r.trace)
    ensures env.remoteAdd != Exited(0) ==> NoPush(r.trace)
    ensures r.outcome == Migrated <==>
              env.clone == Exited(0) && env.enter == Done && env.remoteAdd == Exited(0) && env.push == Exited(0)
    ensures r.outcome != CreateFailed
    ensures r.outcome == CloneFailed <==> env.clone.Exited? && env.clone.code != 0
    ensures r.depth == (if r.outcome == Migrated || (r.outcome == Aborted && Enter(name) in r.trace) then 1 else 0)
    ensures NetDepth(r.trace) == r.depth
    ensures FetchOrdered(r.trace, url, name, env)
    ensures r.outcome == Migrated ==> r.trace == Fetched(url, name)
  {
    var cloned := [CloneMirror(url, name)];
    assert NetDepth(cloned) == 0 by {
      assert cloned[1..] == [];
    }
    match env.clone
    case CommandRaised => Run(cloned, 0, Aborted)
    case Exited(code) =>
      if code != 0 then Run(cloned, 0, CloneFailed)
      else if env.enter.Fails? then Run(cloned, 0, Aborted)
      else
        var f := FetchInside(url, name, env);
        assert f.trace[1] == Enter(name);
        f
  }

  /** Steps 2 and 3 of `migrate_repo` and the change into the clone, once the
      GitHub repository is in place: remove a stale directory, then fetch. A
      failed removal raises before the clone. */
  function Checkout(url: string, name: string, env: Env): (r: Run)
    ensures NoHttp(r.trace)
    ensures env.clone != Exited(0) ==> NeverInside(r.trace)
    ensures env.remoteAdd != Exited(0) ==> NoPush(r.trace)
    ensures r.outcome == Migrated <==>
              && !(env.staleDir && env.staleRemoval.Fails?)
              && env.clone == Exited(0) && env.enter == Done
              && env.remoteAdd == Exited(0) && env.push == Exited(0)
    ensures r.outcome != CreateFailed
    ensures r.depth == (if r.outcome == Migrated || (r.outcome == Aborted && Enter(name) in r.trace) then 1 else 0)
    ensures NetDepth(r.trace) == r.depth
    ensures CheckoutOrdered(r.trace, url, name, env)
    ensures r.outcome == Migrated ==> r.trace == StaleRemoval(name, env) + Fetched(url, name)
  {
    var removed := StaleRemoval(name, env);
    if env.staleDir && env.staleRemoval.Fails? then
      assert Enter(name) !in removed;
      Run(removed, 0, Aborted)
    else
      var f := Fetch(url, name, env);
      PrependRemoval(removed, f.trace, name);
      assert (removed + f.trace)[..|removed|] == removed;
      assert (removed + f.trace)[|removed|] == f.trace[0];
      Run(removed + f.trace, f.depth, f.outcome)
  }

  /** Putting an optional removal in front of a trace adds no request, no
      directory change, no remote and no push. */
  lemma PrependRemoval(pre: seq<Action>, t: seq<Action>, name: string)
    requires pre == [] || pre == [RemoveTree(name)]
    ensures NetDepth(pre + t) == NetDepth(t)
    ensures NoHttp(t) ==> NoHttp(pre + t)
    ensures NeverInside(t) ==> NeverInside(pre + t)
    ensures NoPush(t) ==> NoPush(pre + t)
    ensures Enter(name) in pre + t <==> Enter(name) in t
  {
    NetDepthAppend(pre, t);
    if pre != [] {
      assert pre[1..] == [];
      assert forall i :: 1 <= i < |pre + t| ==> (pre + t)[i] == t[i - 1];
    } else {
      assert pre + t == t;
    }
  }

  /** Putting the creator's requests in front of a trace without requests
      changes neither its depth nor what it does inside the clone. */
  lemma PrependRequests(requests: seq<Request>, t: seq<Action>, name: string)
    requires NoHttp(t)
    ensures var h := HttpActions(requests);
            && |h + t| >= |requests| && (h + t)[..|requests|] == h
            && NetDepth(h + t) == NetDepth(t)
            && (NeverInside(t) ==> NeverInside(h + t))
            && (NoPush(t) ==> NoPush(h + t))
            && (Enter(name) in h + t <==> Enter(name) in t)
  {
    var h := HttpActions(requests);
    NetDepthAppend(h, t);
    assert (h + t)[..|h|] == h;
    assert forall i :: |h| <= i < |h + t| ==> (h + t)[i] == t[i - |h|];
  }

  /** The `try` block of `migrate_repo` (its lines up to the success message),
      given the result `c` of `create_github_repo`: the creator's requests,
      then, if it returned true, the checkout. Each failed step returns at
      once, and so does a raised exception. */
  function Attempt(url: string, name: string, c: Creation, env: Env): (r: Run)
    ensures |r.trace| >= |c.requests| && r.trace[..|c.requests|] == HttpActions(c.requests)
    ensures r.outcome == CreateFailed <==> c.result == Returned(false)
    ensures c.result != Returned(true) ==> OnlyHttp(r.trace)
    ensures env.clone != Exited(0) ==> NeverInside(r.trace)
    ensures env.remoteAdd != Exited(0) ==> NoPush(r.trace)
    ensures r.outcome == Migrated <==>
              && c.result == Returned(true)
              && !(env.staleDir && env.staleRemoval.Fails?)
              && env.clone == Exited(0) && env.enter == Done
              && env.remoteAdd == Exited(0) && env.push == Exited(0)
    ensures r.depth == (if r.outcome == Migrated || (r.outcome == Aborted && Enter(name) in r.trace) then 1 else 0)
    ensures NetDepth(r.trace) == r.depth
  {
    var t0 := HttpActions(c.requests);
    match c.result
    case Raised => Run(t0, 0, Aborted)
    case Returned(false) => Run(t0, 0, CreateFailed)
    case Returned(true) =>
      var k := Checkout(url, name, env);
      PrependRequests(c.requests, k.trace, name);
      Run(t0 + k.trace, k.depth, k.outcome)
  }

  /** The order of the `try` block: nothing follows a creator that did not
      return true; otherwise the stale removal (if any) follows the creator's
      requests, then the clone, and a successful attempt issues exactly the
      removal and the successful fetch after the requests. */
  lemma AttemptOrder(url: string, name: string, c: Creation, env: Env)
    ensures var r := Attempt(url, name, c, env);
            var n := |c.requests|;
            && |r.trace| >= n
            && (c.result != Returned(true) ==> r.trace == HttpActions(c.requests))
            && (c.result == Returned(true) ==> CheckoutOrdered(r.trace[n..], url, name, env))
            && (r.outcome == Migrated ==> r.trace[n..] == StaleRemoval(name, env) + Fetched(url, name))
  {
    var r := Attempt(url, name, c, env);
    if c.result == Returned(true) {
      var k := Checkout(url, name, env);
      assert r.trace == HttpActions(c.requests) + k.trace;
      assert r.trace[|c.requests|..] == k.trace;
    }
  }

  /** The stale removal (if any) does not raise, the clone exits 0 and the
      change into the clone succeeds. */
  predicate GetsInside(env: Env) {
    !(env.staleDir && env.staleRemoval.Fails?) && env.clone == Exited(0) && env.enter == Done
  }

  /** The trace of a fetch whose clone and change into the clone succeed:
      the clone, the change into it, then whatever the publish issues. */
  lemma FetchTrace(url: string, name: string, env: Env)
    requires env.clone == Exited(0) && env.enter == Done
    ensures Fetch(url, name, env).trace == [CloneMirror(url, name), Enter(name)] + Publish(name, env).trace
  {
    var t := FetchInside(url, name, env).trace;
    assert Fetch(url, name, env).trace == t;
    assert t == t[..2] + t[2..];
  }

  /** The same for the checkout: the stale removal (if any) comes first. */
  lemma CheckoutTrace(url: string, name: string, env: Env)
    requires GetsInside(env)
    ensures Checkout(url, name, env).trace ==
              StaleRemoval(name, env) + ([CloneMirror(url, name), Enter(name)] + Publish(name, env).trace)
  {
    FetchTrace(url, name, env);
  }

  /** The same for the `try` block after a creator that returned true. */
  lemma AttemptTrace(url: string, name: string, c: Creation, env: Env)
    requires c.result == Returned(true)
    requires GetsInside(env)
    ensures Attempt(url, name, c, env).trace ==
              HttpActions(c.requests)
              + (StaleRemoval(name, env) + ([CloneMirror(url, name), Enter(name)] + Publish(name, env).trace))
  {
    CheckoutTrace(url, name, env);
  }

  /** After a successful change into the clone, the process is still inside
      it at the end of the `try` block: the remote-add raised, or it
      succeeded and the push did not fail with a status. */
  predicate StaysInside(env: Env) {
    || env.remoteAdd.CommandRaised?
    || (env.remoteAdd == Exited(0) && !(env.push.Exited? && env.push.code != 0))
  }

  /** One of the three logged failures after the clone starts: the clone,
      the remote-add or the push exits with a non-zero status. */
  predicate FetchFailure(env: Env) {
    || (env.clone.Exited? && env.clone.code != 0)
    || (env.clone == Exited(0) && env.enter == Done && !StaysInside(env))
  }

  /** The outcomes the log reports as a failure (not as an exception). */
  predicate Logged(o: Outcome) {
    o == CreateFailed || o == CloneFailed || o == RemoteFailed || o == PushFailed
  }

  /** Where a fetch ends and whether it fails, over the step results: it ends
      inside the clone exactly when the clone and the change into it succeed
      and the process stays inside; it reports a failure exactly on a
      non-zero exit status. */
  lemma FetchEnds(url: string, name: string, env: Env)
    ensures var r := Fetch(url, name, env);
            && (r.depth == 1 <==> env.clone == Exited(0) && env.enter == Done && StaysInside(env))
            && (Logged(r.outcome) <==> FetchFailure(env))
  {
    var r := Fetch(url, name, env);
    if env.clone == Exited(0) && env.enter == Done {
      var p := Publish(name, env);
      assert r.outcome == p.outcome;
      assert r.trace[1] == Enter(name);
    } else {
      assert Enter(name) !in r.trace;
    }
  }

  /** The same for the checkout: a raising stale removal ends outside the
      clone with an exception. */
  lemma CheckoutEnds(url: string, name: string, env: Env)
    ensures var r := Checkout(url, name, env);
            var kept := !(env.staleDir && env.staleRemoval.Fails?);
            && (r.depth == 1 <==> kept && env.clone == Exited(0) && env.enter == Done && StaysInside(env))
            && (Logged(r.outcome) <==> kept && FetchFailure(env))
  {
    if !(env.staleDir && env.staleRemoval.Fails?) {
      FetchEnds(url, name, env);
    }
  }

  /** The same for the `try` block, given the creator's result. */
  lemma AttemptEnds(url: string, name: string, c: Creation, env: Env)
    ensures var r := Attempt(url, name, c, env);
            var kept := c.result == Returned(true) && !(env.staleDir && env.staleRemoval.Fails?);
            && (r.depth == 1 <==> kept && env.clone == Exited(0) && env.enter == Done && StaysInside(env))
            && (Logged(r.outcome) <==> c.result == Returned(false) || (kept && FetchFailure(env)))
  {
    if c.result == Returned(true) {
      CheckoutEnds(url, name, env);
    }
  }

  /* ------------------------------------------------------ migrate_repo */

  /** The `finally` clause as written: `chdir("..")`, then the removal of the
      clone directory, whatever the depth the attempt ended at. The process
      ends one level above where the attempt left it, and the removal is
      issued there. */
  function Finally(a: Run, name: string): (r: Run)
    requires NetDepth(a.trace) == a.depth
    ensures r.outcome == a.outcome
    ensures |r.trace| == |a.trace| + 2 && r.trace[..|a.trace|] == a.trace
    ensures r.trace[|a.trace|..] == [Leave, RemoveTree(name)]
    ensures NetDepth(r.trace) == r.depth == a.depth - 1
    ensures DepthAt(r.trace, |r.trace| - 1) == a.depth - 1
    ensures Enter(name) in r.trace <==> Enter(name) in a.trace
  {
    var tail := [Leave, RemoveTree(name)];
    var t := a.trace + tail;
    NetDepthAppend(a.trace, tail);
    NetDepthAppend(a.trace, [Leave]);
    assert tail[1..] == [RemoveTree(name)] && [RemoveTree(name)][1..] == [] && [Leave][1..] == [];
    assert t[..|t| - 1] == a.trace + [Leave];
    DepthAtPrefix(t, |t| - 1);
    assert Enter(name) !in tail;
    Run(t, a.depth - 1, a.outcome)
  }

  /** `migrate_repo(gitlab_repo)` as written: the attempt, then the `finally`
      clause, which always steps up one directory and removes the clone
      directory by name. Every run, a raised exception included, begins with
      the visibility query and ends with `chdir("..")` followed by the
      removal; it succeeds exactly when every step does. */
  function Migrate(url: string, env: Env): (r: Run)
    ensures |r.trace| >= 3
    ensures r.trace[0] == Http(GetProject(ProjectId(url)))
    ensures r.trace[|r.trace| - 2..] == [Leave, RemoveTree(RepoName(url))]
    ensures r.outcome == Migrated <==> AllSucceed(url, env)
  {
    var name := RepoName(url);
    var c := Creator(url, env);
    var a := Attempt(url, name, c, env);
    var r := Finally(a, name);
    assert r.trace[0] == Http(GetProject(ProjectId(url))) by {
      assert r.trace[0] == a.trace[0] == a.trace[..|c.requests|][0] == HttpActions(c.requests)[0];
    }
    r
  }

  /** The cleanup adds neither a change into the clone, nor a remote, nor a
      push. */
  lemma FinallyAddsNothingInside(a: Run, name: string)
    requires NetDepth(a.trace) == a.depth
    ensures var r := Finally(a, name);
            && r.trace[..|r.trace| - 2] == a.trace
            && (NeverInside(a.trace) ==> NeverInside(r.trace))
            && (NoPush(a.trace) ==> NoPush(r.trace))
  {
    var r := Finally(a, name);
    forall i | |a.trace| <= i < |r.trace|
      ensures r.trace[i] == Leave || r.trace[i] == RemoveTree(name)
    {
      assert r.trace[i] == r.trace[|a.trace|..][i - |a.trace|];
    }
  }

  /** A failed step stops the run: a failed creator is followed by nothing
      but the cleanup; a failed clone by no directory change, remote or push;
      a failed remote-add by no push. */
  lemma MigrateStopsAtFailure(url: string, env: Env)
    ensures var r := Migrate(url, env);
            && (Creator(url, env).result != Returned(true) ==> OnlyHttp(r.trace[..|r.trace| - 2]))
            && (env.clone != Exited(0) ==> NeverInside(r.trace))
            && (env.remoteAdd != Exited(0) ==> NoPush(r.trace))
  {
    var name := RepoName(url);
    var a := Attempt(url, name, Creator(url, env), env);
    assert Migrate(url, env) == Finally(a, name);
    FinallyAddsNothingInside(a, name);
  }

  /** The cleanup appends the step up and the removal to the attempt. */
  lemma FinallyAppends(a: Run, name: string)
    requires NetDepth(a.trace) == a.depth
    ensures Finally(a, name).trace == a.trace + [Leave, RemoveTree(name)]
  {
  }

  /** A run in which every step succeeds issues exactly: the creator's
      requests, the stale removal (if any), the clone, the change into it,
      the remote, the push, then the cleanup's step up and removal. */
  lemma MigrateSuccessTrace(url: string, env: Env)
    requires AllSucceed(url, env)
    ensures var name := RepoName(url);
            Migrate(url, env).trace ==
              HttpActions(Creator(url, env).requests) + StaleRemoval(name, env) + Fetched(url, name)
              + [Leave, RemoveTree(name)]
  {
    var name := RepoName(url);
    var c := Creator(url, env);
    var a := Attempt(url, name, c, env);
    assert Migrate(url, env) == Finally(a, name);
    AttemptOrder(url, name, c, env);
    FinallyAppends(a, name);
    Regroup(HttpActions(c.requests), StaleRemoval(name, env), Fetched(url, name));
  }

  lemma Regroup(h: seq<Action>, pre: seq<Action>, mid: seq<Action>)
    ensures h + (pre + mid) == h + pre + mid
  {
  }

  lemma Regroup3(h: seq<Action>, pre: seq<Action>, x: seq<Action>, y: seq<Action>, z: seq<Action>)
    ensures h + (pre + (x + y)) + z == h + pre + (x + y + z)
  {
  }

  /** The trace of a run that gets inside the clone: the creator's requests,
      the stale removal (if any), the clone, the change into it, whatever the
      publish issues, then the cleanup's step up and removal. */
  lemma MigrateInsideTrace(url: string, env: Env)
    requires Creator(url, env).result == Returned(true)
    requires GetsInside(env)
    ensures var name := RepoName(url);
            Migrate(url, env).trace ==
              HttpActions(Creator(url, env).requests)
              + (StaleRemoval(name, env) + ([CloneMirror(url, name), Enter(name)] + Publish(name, env).trace))
              + [Leave, RemoveTree(name)]
  {
    var name := RepoName(url);
    var c := Creator(url, env);
    var a := Attempt(url, name, c, env);
    assert Migrate(url, env) == Finally(a, name);
    AttemptTrace(url, name, c, env);
    FinallyAppends(a, name);
  }

  /** The clone, the change into it, a failed remote-add and the cleanup. */
  lemma RemoteFailedSteps(url: string, name: string, env: Env)
    requires env.remoteAdd.Exited? && env.remoteAdd.code != 0
    ensures [CloneMirror(url, name), Enter(name)] + Publish(name, env).trace + [Leave, RemoveTree(name)]
            == [CloneMirror(url, name), Enter(name), AddRemote(GitHubUrl(name)), Leave, Leave, RemoveTree(name)]
  {
    assert Publish(name, env).trace == [AddRemote(GitHubUrl(name)), Leave];
  }

  /** The clone, the change into it, a failed push and the cleanup. */
  lemma PushFailedSteps(url: string, name: string, env: Env)
    requires env.remoteAdd == Exited(0) && env.push.Exited? && env.push.code != 0
    ensures [CloneMirror(url, name), Enter(name)] + Publish(name, env).trace + [Leave, RemoveTree(name)]
            == [CloneMirror(url, name), Enter(name), AddRemote(GitHubUrl(name)), PushMirror, Leave, Leave, RemoveTree(name)]
  {
    assert Publish(name, env).trace == [AddRemote(GitHubUrl(name)), PushMirror, Leave];
  }

  /** A run whose remote-add exits non-zero steps out of the clone twice:
      once after the failed command and once more in the `finally` clause,
      where the removal is then issued. */
  lemma MigrateRemoteFailedTrace(url: string, env: Env)
    requires Creator(url, env).result == Returned(true)
    requires GetsInside(env)
    requires env.remoteAdd.Exited? && env.remoteAdd.code != 0
    ensures var name := RepoName(url);
            Migrate(url, env).trace ==
              HttpActions(Creator(url, env).requests) + StaleRemoval(name, env)
              + [CloneMirror(url, name), Enter(name), AddRemote(GitHubUrl(name)), Leave, Leave, RemoveTree(name)]
  {
    var name := RepoName(url);
    MigrateInsideTrace(url, env);
    var x := [CloneMirror(url, name), Enter(name)];
    var y := Publish(name, env).trace;
    var z := [Leave, RemoveTree(name)];
    Regroup3(HttpActions(Creator(url, env).requests), StaleRemoval(name, env), x, y, z);
    RemoteFailedSteps(url, name, env);
  }

  /** A run whose push exits non-zero issues the push, then steps out of the
      clone twice, as above. */
  lemma MigratePushFailedTrace(url: string, env: Env)
    requires Creator(url, env).result == Returned(true)
    requires GetsInside(env)
    requires env.remoteAdd == Exited(0) && env.push.Exited? && env.push.code != 0
    ensures var name := RepoName(url);
            Migrate(url, env).trace ==
              HttpActions(Creator(url, env).requests) + StaleRemoval(name, env)
              + [CloneMirror(url, name), Enter(name), AddRemote(GitHubUrl(name)), PushMirror, Leave, Leave, RemoveTree(name)]
  {
    var name := RepoName(url);
    MigrateInsideTrace(url, env);
    var x := [CloneMirror(url, name), Enter(name)];
    var y := Publish(name, env).trace;
    var z := [Leave, RemoveTree(name)];
    Regroup3(HttpActions(Creator(url, env).requests), StaleRemoval(name, env), x, y, z);
    PushFailedSteps(url, name, env);
  }

  /** The depth a run reports is the net depth change of its actions. The
      process ends where it started only after a success or an exception
      raised inside the clone; every other path leaves it one level above its
      starting directory. */
  lemma MigrateDepth(url: string, env: Env)
    ensures var r := Migrate(url, env);
            && r.depth == NetDepth(r.trace)
            && (r.depth == 0 || r.depth == -1)
            && (r.depth == 0 <==> r.outcome == Migrated || (r.outcome == Aborted && Enter(RepoName(url)) in r.trace))
            && DepthAt(r.trace, |r.trace| - 1) == r.depth
  {
    MigrateNetDepth(url, env);
    MigrateDepthInside(url, env);
    MigrateRemovalDepth(url, env);
  }

  /** The reported depth of a run is the net depth of its trace, 0 or -1. */
  lemma MigrateNetDepth(url: string, env: Env)
    ensures var r := Migrate(url, env); r.depth == NetDepth(r.trace) && (r.depth == 0 || r.depth == -1)
  {
    var name := RepoName(url);
    var a := Attempt(url, name, Creator(url, env), env);
    assert Migrate(url, env) == Finally(a, name);
  }

  /** A run ends at depth 0 exactly when it succeeds or an exception is
      raised after the change into the clone. */
  lemma MigrateDepthInside(url: string, env: Env)
    ensures var r := Migrate(url, env);
            r.depth == 0 <==> r.outcome == Migrated || (r.outcome == Aborted && Enter(RepoName(url)) in r.trace)
  {
    var name := RepoName(url);
    var a := Attempt(url, name, Creator(url, env), env);
    assert Migrate(url, env) == Finally(a, name);
  }

  /** The final removal runs at the depth the run ends at. */
  lemma MigrateRemovalDepth(url: string, env: Env)
    ensures var r := Migrate(url, env); DepthAt(r.trace, |r.trace| - 1) == r.depth
  {
    MigrateNetDepth(url, env);
    LastRemovalDepth(Migrate(url, env).trace, RepoName(url));
  }

  /** A trace that ends with a removal runs it at the trace's net depth. */
  lemma LastRemovalDepth(t: seq<Action>, name: string)
    requires |t| >= 2 && t[|t| - 2..] == [Leave, RemoveTree(name)]
    ensures DepthAt(t, |t| - 1) == NetDepth(t)
  {
    assert t[|t| - 1] == t[|t| - 2..][1];
    DepthAtPrefix(t, |t|);
    assert t[..|t|] == t;
  }

  /** The creator returns true and every step up to the change into the
      clone succeeds, then the remote-add raises, or it succeeds and the push
      raises: the exception is caught while the process is inside the
      clone. */
  predicate AbortedInside(url: string, env: Env) {
    && Creator(url, env).result == Returned(true)
    && !(env.staleDir && env.staleRemoval.Fails?)
    && env.clone == Exited(0) && env.enter == Done
    && (env.remoteAdd.CommandRaised? || (env.remoteAdd == Exited(0) && env.push.CommandRaised?))
  }

  /** The step results under which `migrate_repo` logs one of its four
      failures: the creator returns false, or it returns true, the stale
      removal does not raise, and the clone, the remote-add or the push exits
      with a non-zero status. */
  predicate LoggedFailure(url: string, env: Env) {
    var c := Creator(url, env).result;
    || c == Returned(false)
    || (c == Returned(true) && !(env.staleDir && env.staleRemoval.Fails?) && FetchFailure(env))
  }

  /** Where a run ends and whether it logs a failure, over the step results:
      it ends in the directory it started in exactly when every step succeeds
      or an exception is raised inside the clone, and it logs a failure
      exactly under `LoggedFailure`. */
  lemma MigrateEnds(url: string, env: Env)
    ensures var r := Migrate(url, env);
            && (r.depth == 0 <==> AllSucceed(url, env) || AbortedInside(url, env))
            && (Logged(r.outcome) <==> LoggedFailure(url, env))
  {
    var name := RepoName(url);
    var c := Creator(url, env);
    var a := Attempt(url, name, c, env);
    assert Migrate(url, env) == Finally(a, name);
    AttemptEnds(url, name, c, env);
  }

  /** A run whose step results make it log one of the four failures issues
      its final removal, and ends, one directory above the one it started
      in: the `finally` clause steps up although the process is no longer
      inside the clone. */
  lemma FailedRunEndsAboveStart(url: string, env: Env)
    ensures var r := Migrate(url, env);
            LoggedFailure(url, env) ==>
              && Logged(r.outcome)
              && r.depth == -1
              && r.trace[|r.trace| - 1] == RemoveTree(RepoName(url))
              && DepthAt(r.trace, |r.trace| - 1) == -1
  {
    MigrateEnds(url, env);
    MigrateDepth(url, env);
  }

  /** A concrete failing input: the GitHub repository already exists and the
      clone exits with status 128. The run ends one directory above its
      start. */
  lemma CloneFailureEscapes(url: string)
    ensures var env := Env(Response(200, Str("public")), Response(200, Absent), ConnectionError,
                           false, Done, Exited(128), Done, Exited(0), Exited(0));
            && Migrate(url, env).outcome == CloneFailed
            && Migrate(url, env).depth == -1
  {
    var env := Env(Response(200, Str("public")), Response(200, Absent), ConnectionError,
                   false, Done, Exited(128), Done, Exited(0), Exited(0));
    var name := RepoName(url);
    var c := Creator(url, env);
    assert c.result == Returned(true);
    var a := Attempt(url, name, c, env);
    assert a.outcome == CloneFailed;
    assert Migrate(url, env) == Finally(a, name);
  }

  /** A concrete input with a failed remote-add: the GitHub repository
      already exists, no stale directory is present, and `git remote add`
      exits with status 3. The run steps out twice before the removal. */
  lemma RemoteFailureExample(url: string)
    ensures var env := Env(Response(200, Str("public")), Response(200, Absent), ConnectionError,
                           false, Done, Exited(0), Done, Exited(3), Exited(0));
            var name := RepoName(url);
            && StaleRemoval(name, env) == []
            && Migrate(url, env).trace ==
                 HttpActions(Creator(url, env).requests) + StaleRemoval(name, env)
                 + [CloneMirror(url, name), Enter(name), AddRemote(GitHubUrl(name)), Leave, Leave, RemoveTree(name)]
  {
    var env := Env(Response(200, Str("public")), Response(200, Absent), ConnectionError,
                   false, Done, Exited(0), Done, Exited(3), Exited(0));
    assert Creator(url, env).result == Returned(true);
    MigrateRemoteFailedTrace(url, env);
  }

  /** A concrete input with a failed push: as above, but the remote is added
      and `git push --mirror` exits with status 1. */
  lemma PushFailureExample(url: string)
    ensures var env := Env(Response(200, Str("public")), Response(200, Absent), ConnectionError,
                           false, Done, Exited(0), Done, Exited(0), Exited(1));
            var name := RepoName(url);
            && StaleRemoval(name, env) == []
            && Migrate(url, env).trace ==
                 HttpActions(Creator(url, env).requests) + StaleRemoval(name, env)
                 + [CloneMirror(url, name), Enter(name), AddRemote(GitHubUrl(name)), PushMirror, Leave, Leave, RemoveTree(name)]
  {
    var env := Env(Response(200, Str("public")), Response(200, Absent), ConnectionError,
                   false, Done, Exited(0), Done, Exited(0), Exited(1));
    assert Creator(url, env).result == Returned(true);
    MigratePushFailedTrace(url, env);
  }

  /* ------------------------------------------------ corrected migrate_repo */

  /** The `finally` clause corrected: step up only while the process is
      inside the clone. The process ends where the run started, and the
      removal is issued there. */
  function FinallyCorrected(a: Run, name: string): (r: Run)
    requires NetDepth(a.trace) == a.depth && (a.depth == 0 || a.depth == 1)
    ensures r.outcome == a.outcome
    ensures NetDepth(r.trace) == r.depth == 0
    ensures |r.trace| >= 1 && r.trace[|r.trace| - 1] == RemoveTree(name)
    ensures DepthAt(r.trace, |r.trace| - 1) == 0
  {
    var back := if a.depth == 1 then [Leave] else [];
    var t := a.trace + back + [RemoveTree(name)];
    assert NetDepth(back) == -a.depth by {
      assert [Leave][1..] == [];
    }
    NetDepthAppend(a.trace, back);
    NetDepthAppend(a.trace + back, [RemoveTree(name)]);
    assert [RemoveTree(name)][1..] == [];
    assert t[..|t| - 1] == a.trace + back;
    DepthAtPrefix(t, |t| - 1);
    Run(t, 0, a.outcome)
  }

  /** The corrected cleanup is the written one when the attempt ended inside
      the clone, and the removal alone otherwise. */
  lemma FinallyCorrectedMatches(a: Run, name: string)
    requires NetDepth(a.trace) == a.depth && (a.depth == 0 || a.depth == 1)
    ensures a.depth == 1 ==> FinallyCorrected(a, name).trace == Finally(a, name).trace
    ensures a.depth == 0 ==> FinallyCorrected(a, name).trace == a.trace + [RemoveTree(name)]
  {
    assert a.trace + [Leave] + [RemoveTree(name)] == a.trace + [Leave, RemoveTree(name)];
    assert a.trace + [] + [RemoveTree(name)] == a.trace + [RemoveTree(name)];
  }

  /** `migrate_repo` with the corrected `finally` clause. Every run ends in
      the directory it started in, the final removal of the clone directory
      is issued there, and the run succeeds exactly when every step does. */
  function MigrateCorrected(url: string, env: Env): (r: Run)
    ensures r.depth == 0 && NetDepth(r.trace) == 0
    ensures |r.trace| >= 1 && r.trace[|r.trace| - 1] == RemoveTree(RepoName(url))
    ensures DepthAt(r.trace, |r.trace| - 1) == 0
    ensures r.outcome == Migrated <==> AllSucceed(url, env)
  {
    var name := RepoName(url);
    FinallyCorrected(Attempt(url, name, Creator(url, env), env), name)
  }

  /** The corrected run differs from the run as written only in its cleanup:
      the same outcome, the same actions when the attempt ended inside the
      clone, and otherwise the same actions without the extra `chdir("..")`. */
  lemma CorrectedAgrees(url: string, env: Env)
    ensures var m := Migrate(url, env);
            var c := MigrateCorrected(url, env);
            && c.outcome == m.outcome
            && (m.depth == 0 ==> c.trace == m.trace)
            && (m.depth == -1 ==> c.trace == m.trace[..|m.trace| - 2] + [RemoveTree(RepoName(url))])
  {
    var name := RepoName(url);
    var a := Attempt(url, name, Creator(url, env), env);
    assert Migrate(url, env) == Finally(a, name);
    assert MigrateCorrected(url, env) == FinallyCorrected(a, name);
    FinallyCorrectedMatches(a, name);
  }
}
